=== FILE: README.md ===
# Canteen Rush AI: order lifecycle and wait-time model

A Dafny model of the core of a multi-vendor canteen ordering app. It covers
three parts:

- the wait-time predictor in `ai_engine.py`;
- the order and user tables behind `database.py`, as an in-memory store;
- the read-time view rules in `app.py`.

Students register, sign in, and order an item from a vendor for "Immediate"
pickup or for a break slot. The predictor estimates the wait from the
vendor's queue of active orders and turns the pickup into a twelve-hour
clock label. The label is stored with the order. The vendor's board lists
active orders oldest first. It flags rows as urgent (pickup one to four
minutes away) or ghost (`Ready` for over twenty minutes), and cues when to
start cooking. It offers one forward status step per row plus a no-show
button, which costs the student 10 karma points, floored at 0. The student's
tracking loop shows a progress bar and toasts an order the first time it is
seen turning `Ready`.

Modules, one file each:

- `text.dfy` (`Text`): Python's `str.strip`, the digit and space runs
  `strptime` reads, and zero-padded decimals.
- `clock.dfy` (`Clock`): the `%I:%M` slot grammar, the `%I:%M %p` clock
  grammar, and `strftime("%I:%M %p")` over seconds from a midnight.
- `store.dfy` (`Store`): the tables as maps with the validity invariant
  (karma in [0, 100], orders filed under their ids below the next id). It
  holds every `database.py` query and write of the core.
- `lifecycle.dfy` (`Lifecycle`): sequences of writes, what each write keeps,
  and how each write moves a vendor's active-order count.
- `predictor.dfy` (`Predictor`): `calculate_wait_time` and
  `get_vendor_stats`.
- `views.dfy` (`Views`): row flags and style, prep cue, action buttons, the
  tracking loop, the progress and karma mappings, and the sign-up and
  sign-in checks.

The clock is a parameter. The predictor takes `now` as seconds since
midnight. The views take one absolute second count for both the clock and
the stored order time, with midnights at multiples of 86400. The token
suffix that `random.randint(100, 999)` draws is a parameter of type
`TokenSuffix`, the integers 100 to 999. Credential comparison at sign-in is
a boolean parameter.

## Model

| member | source | states |
|---|---|---|
| Text.Strip | database.py:137 | A stripped string has no leading or trailing whitespace. It is empty iff the input is all whitespace. It is the input itself when that has no whitespace at either end. It is a contiguous slice of the input with only whitespace before and after it. |
| Text.StripIdempotent | database.py:137-164 | Stripping twice is stripping once, so a roll number stored stripped at registration is found again by the stripped look-ups. |
| Text.FirstWord | ai_engine.py:47 | The token before the first space is a prefix of the label with no space in it, and the label continues with a space after it. |
| Text.FirstWordOfJoin | ai_engine.py:45-47 | A space-free word followed by a space and anything else has that word as its first word. |
| Text.FirstTwoWords | ai_engine.py:45 | The text before the second space: it extends the first word, is a prefix of the label, has its only space right after the first word, and is followed by a space unless it is the whole label. |
| Text.FirstTwoWordsOfJoin | ai_engine.py:45 | Two space-free words keep exactly those two words, alone or followed by a space and any further text, as in "10:30 AM Break". |
| Text.DecimalString | database.py:193 | The decimal text of a number is all digits, reads back as the number, has no leading zero, and has three characters for 100 to 999. |
| Clock.MinuteOf | ai_engine.py:57 | The minute of the day of an instant is the whole minute containing it, counted modulo one day. |
| Clock.ParseSlotToken | ai_engine.py:48 | `%I:%M` reads hour 1 to 12 and minute 0 to 59 split at the first colon. It gives a minute of the day before noon, with hour 12 read as 0. |
| Clock.ParseClock | app.py:270 | A text reads as a clock only if it has a colon preceded by a valid twelve-hour hour. |
| Clock.FormatClock | ai_engine.py:57 | `%I:%M %p` is eight characters. The hour is 01 to 12 and agrees with the minute of day modulo twelve. The minute is 00 to 59. The marker is AM exactly before noon. |
| Clock.ParseFormatRoundTrip | app.py:270-271 | Reading back a formatted instant gives its minute of the day. |
| Clock.ClockTextReadsBack | app.py:270 | Any `hh:mm xM` text laid out for a minute of the day reads back as that minute. |
| Clock.SlotReadsMorningTwin | ai_engine.py:47-48 | Read with `%I:%M`, the first five characters of a formatted clock give the same time shifted into the morning. |
| Store.Select | database.py:211 | Filtering keeps exactly the rows the filter accepts and never lengthens the listing. |
| Store.SelectMultiplicity | database.py:211 | A kept row appears in the selection exactly as many times as in the input, and a dropped row not at all, so the count of selected rows is the count of matching rows. |
| Store.SortByTime | database.py:212 | The sort is a permutation of its input, ordered by order time in the requested direction. |
| Store.InsertSorted | database.py:220 | Inserting into an ordered listing keeps it ordered. |
| Store.VendorOrders | database.py:207-213 | The vendor board holds exactly the vendor's active orders whose owner is a known user. They are oldest first, with distinct ids. |
| Store.UserActiveOrders | database.py:215-221 | The tracking rows are exactly the student's active orders at known vendors, looked up by stripped roll number. They are newest first, with distinct ids. |
| Store.CheckBanStatus | database.py:162-165 | A known user is banned iff below 40 points. An unknown roll number is never banned. |
| Store.GetUserPoints | database.py:167-170 | A known user's points, and 0 for an unknown roll number. |
| Store.BanMatchesPoints | database.py:162-170 | Ban status and the points look-up agree: banned iff the points shown are below 40, and an unknown user is neither banned nor has points. |
| Store.FirstPrepTime | database.py:159-160 | The prep time of the first menu row with that name, or 5 when no row has it. |
| Store.GetItemPrepTimeByName | database.py:157-160 | The prep time is that of some menu row with the name, or 5 when none has it. |
| Store.FloorAtZero | database.py:174 | `MAX(0, p - amount)` is never negative, never below `p - amount`, and never above `p` for a non-negative amount. |
| Store.MakeToken | database.py:193 | The token is seven characters: `#VR-` followed by the three digits of the suffix. |
| Store.TokenDeterminesSuffix | database.py:193 | Two tokens are equal iff their suffixes are, so the suffix can be read back from the token. |
| Store.RegisterUser | database.py:134-140 | It succeeds iff the stripped roll number is new, and then adds exactly that user with 100 points and the stripped name. On a duplicate it changes nothing. |
| Store.AddOrder | database.py:192-205 | It adds exactly one order under the next id, leaving every other order alone. The order is `Received`, with the given pickup label and item, the stripped user id, and the owner's name or "Unknown". The returned token is that order's token. |
| Store.UpdateStatus | database.py:227-230 | It overwrites the target order's status and nothing else, with no legality check. A missing id changes nothing. |
| Store.ExpireOrderWithPenalty | database.py:232-241 | A missing order changes nothing and reports failure. An existing order becomes `Expired`, and its owner's points drop by 10, floored at 0, reported with the new total. An owner missing from the users table is reported instead of the new points. |
| Store.DeductPoints | database.py:172-176 | Only the stripped roll number's points change, to `max(0, p - amount)`. An unknown roll number changes nothing. |
| Store.VendorActiveCount | database.py:223-225 | The count the predictor reads never exceeds the number of order ids handed out. `Lifecycle.VendorActiveCountIsCardinality` states exactly what it counts. |
| Lifecycle.Seeded | database.py:28-87 | The freshly created tables are valid and every vendor's queue is empty. |
| Lifecycle.ApplyPreservesValid | database.py:134-241 | Every write keeps points in [0, 100] and orders filed under ids below the next id. |
| Lifecycle.RunPreservesValid | database.py:134-241 | Any sequence of writes keeps the store valid. |
| Lifecycle.ApplyKeepsOrderRecords | database.py:227-237 | No write deletes an order or changes anything but its status. |
| Lifecycle.ApplyNeverRaisesKarma | database.py:172-241 | No write deletes a user or raises their points. |
| Lifecycle.RunKeepsRecords | database.py:134-241 | Over any sequence of writes, orders and users persist, orders change only in status, and points never rise. |
| Lifecycle.VendorActiveCountIsCardinality | database.py:223-225 | The vendor count is the number of stored orders of that vendor whose status is neither `Collected` nor `Expired`. |
| Lifecycle.AddOrderCount | database.py:192-205 | Placing an order raises its vendor's count by one and leaves every other vendor's count alone. |
| Lifecycle.UpdateStatusCount | database.py:227-230 | A status overwrite moves the vendor count by exactly the change in whether that order counts. |
| Lifecycle.ExpireCount | database.py:236 | A no-show on an active order lowers its vendor's count by one. |
| Lifecycle.VendorOrdersAgainstCount | database.py:207-225 | The board never lists more orders than the count the predictor reads. It lists all of them when every owner is a known user. |
| Lifecycle.ListedWhileActive | database.py:207-213 | A stored order of a registered student is on its vendor's board iff it is active. |
| Lifecycle.PlacedOrderListedUntilCollected | database.py:207-213 | A placed order stays on the board through `Cooking` and `Ready`, leaves it when `Collected`, and keeps its predicted pickup. |
| Lifecycle.PlacedOrderCountReturns | database.py:223-225 | Over the same journey the vendor count rises by one at placement and returns to where it was at collection. |
| Predictor.AdjustedQueueDelay | ai_engine.py:28-35 | The adjusted delay is the queue delay `2n`, times 1.5 in a rush, with nothing truncated. |
| Predictor.TotalWait | ai_engine.py:38 | The wait is `prep + 2n + 2` without a rush and `prep + 3n + 2` with one. |
| Predictor.TotalWaitMonotone | ai_engine.py:28-38 | More active orders or a longer prep time never shorten the wait. Crossing into a rush adds at least 13 minutes. |
| Predictor.RushBoundaryExamples | ai_engine.py:31-35 | 10 orders is no rush and 11 is. The adjusted delays for 10, 11 and 12 are 20, 33 and 36. An empty queue with prep 10 waits 12 minutes. |
| Predictor.ResolvePickup | ai_engine.py:41-55 | "Immediate", an unreadable slot and a slot earlier than now all resolve to now plus the wait. Otherwise the result is the slot's time today. With a non-negative wait it is never before now, and any slot it keeps lies before noon. |
| Predictor.AsWrittenReadsMorningTwin | ai_engine.py:47-53 | A clock label is resolved as its morning twin or falls back to now plus the wait. From noon on it always falls back. |
| Predictor.AsWrittenIgnoresTrailingWord | ai_engine.py:45-47 | As written, a word such as "Break" after a clock label does not change how the label resolves. |
| Predictor.SameFirstWordSameReading | ai_engine.py:42-55 | As written, two labels other than "Immediate" that share their first word resolve to the same pickup. |
| Predictor.AfternoonSlotIgnored | ai_engine.py:47-53 | At noon with a 12-minute wait, "1:30 PM" resolves to 12:12 PM, not to the 01:30 PM that the corrected reading gives. |
| Predictor.ResolvePickupIntended | ai_engine.py:45-55 | Reading the first two words of the slot, as in "10:30 AM" of "10:30 AM Break", as `%I:%M %p`: the same fallbacks, never before now with a non-negative wait, and a readable slot not earlier than now is kept. |
| Predictor.IntendedHonoursLabel | ai_engine.py:45-53 | Under the corrected reading, any clock label not earlier than now, alone or followed by a word such as "Break", resolves to that time and reads back as its own minute. |
| Predictor.OfferedSlotsAsClock | app.py:219 | Each slot the order form offers after "Immediate" reads as the clock time it names: 10:30, 12:00, 13:30 and 15:00, so the corrected reading keeps it while that time lies ahead. |
| Predictor.OfferedSlotsAsWritten | ai_engine.py:47-53 | As written, the form's "12:00 PM" falls back to now plus the wait at every moment after midnight, and from noon on every slot the form offers falls back. |
| Predictor.Predict | ai_engine.py:57-70 | Rush iff over 10 active orders. The breakdown has buffer 2 and total = minutes = base prep + queue delay + buffer. The delay is `2n` or `3n` by rush. The label reads back as the pickup's minute of the day. |
| Predictor.CalculateWaitTime | ai_engine.py:10-70 | The prediction's queue is the vendor's active count, its minutes are the total wait, and its label reads back as the resolved pickup. |
| Predictor.CalculateWaitTimeIntended | ai_engine.py:10-70 | The same as `CalculateWaitTime`, with the pickup resolved under the corrected slot reading. |
| Predictor.ImmediatePickup | ai_engine.py:42-43 | With "Immediate", the label reads back as now plus the predicted minutes, under either slot reading. |
| Predictor.EmptyQueuePrediction | ai_engine.py:38 | With an empty queue and prep 10, the prediction is 12 minutes, no rush, queue delay 0. |
| Predictor.GetVendorStats | ai_engine.py:73-85 | The queue load is the active count. Rush holds iff the load is over 10. The average wait is `2n + 5` or `3n + 5`. |
| Predictor.StatsMatchPrediction | ai_engine.py:77-79 | The vendor's average wait equals the student's prediction for a 5-minute item less the 2-minute buffer, and both agree on rush. |
| Views.NowOnClock | app.py:271 | Formatting now and reading it back gives now's minute of the day. |
| Views.Flags | app.py:268-277 | Urgent iff the pickup parses and is 1 to 4 minutes after now's clock. Ghost iff the pickup and order time both parse, the order is `Ready`, and over 1200 seconds have passed. |
| Views.OrderFlags | app.py:266-277 | A stored order's row is urgent iff its pickup parses and is 1 to 4 minutes after now's clock, and a ghost iff its pickup parses, it is `Ready`, and over 20 minutes have passed since it was placed. |
| Views.StoredPredictionFlags | app.py:270-276 | For a stored predicted label, urgent iff its minute of day is 1 to 4 after now's, and ghost iff `Ready` and over 20 minutes old. |
| Views.NoMidnightWrap | app.py:270-273 | At 23:59 a pickup labelled 12:01 AM is not urgent, because both readings fall on one dummy date. |
| Views.StyleOf | app.py:279 | The row is urgent-styled iff urgent, and ghost-styled iff ghost and not urgent. |
| Views.GhostStyleOnlyWhenReady | app.py:268-279 | A ghost-styled row is a `Ready`, non-urgent order. A row whose pickup does not parse is plain. |
| Views.Cue | app.py:290-294 | "Start NOW" iff the order is `Received` with no more than prep + 2 minutes left. Otherwise it waits `max(0, remaining - prep)` minutes, which for a received order is over 2. |
| Views.PrepCueOf | app.py:284-296 | The item name is shown iff the pickup does not parse. Otherwise the cue compares the minutes left until the pickup with the item's prep time as `Cue` does. |
| Views.CueCountsDown | app.py:290-294 | With less time left, "Start NOW" stays and the minutes shown never grow. |
| Views.PrepCueCountsDown | app.py:285-294 | As the day's clock advances, a received order's cue only counts down. |
| Views.OfferedActions | app.py:302-308 | Every row offers a no-show. An active row also offers exactly the next status. A `Collected` or `Expired` row offers only the no-show. |
| Views.ActionsMoveForward | app.py:302-310 | Every button on a listed row moves that order strictly forward, so the board never sends a status back. |
| Views.Perform | app.py:302-310 | A button changes only the pressed order, to the next status or to `Expired` for a no-show. Only a no-show touches a user, the order's owner. The store stays valid. |
| Views.Track | app.py:180-184 | A pass records every listed id as seen and toasts only ids of listed `Ready` rows. |
| Views.TrackRecordsStatus | app.py:184 | After a pass each listed row's status is the one last seen, and other entries are untouched. |
| Views.TrackToastsExactly | app.py:182-183 | A pass toasts exactly the rows seen before whose status changed to `Ready`. |
| Views.FirstSightingNeverNotifies | app.py:182 | An order never seen before raises no toast. |
| Views.RepeatPassIsQuiet | app.py:182-184 | Rendering the same rows again raises no toast. |
| Views.StudentTrack | app.py:177-184 | The student's tracking pass toasts only the student's own stored orders that are `Ready`. |
| Views.TrackedOrderRecorded | app.py:177-184 | A student's active order at a known vendor is recorded with its current status. |
| Views.TrackedOrderToasts | app.py:177-183 | Such an order that has turned `Ready` since last seen toasts. |
| Views.ReadyToastsOnce | app.py:177-184 | A tracked `Cooking` order marked `Ready` toasts on the next refresh and not on the one after. |
| Views.Progress | app.py:185 | 0 for `Received`, 50 for `Cooking`, 100 exactly for `Ready`, and 0 otherwise. |
| Views.Badge | app.py:171 | Green iff above 80 points, red iff below 50, and yellow otherwise. |
| Views.BadgeFollowsKarma | app.py:166-171 | More points never show a worse badge, and a banned student's badge is red. |
| Views.SubmitRegistration | app.py:126-129 | An incomplete form is refused and changes nothing. A complete form creates the account iff the stripped roll number is new, with 100 points. Otherwise it reports that the id exists. |
| Views.ResubmitReportsIdExists | app.py:126-128 | Submitting the same completed form twice creates the account once, and the second submission reports that the id exists. |
| Views.SignIn | app.py:106-114 | Suspended iff the stripped roll number is a user below 40 points, checked before the credentials. Signed in iff not suspended and the credentials match, and refused as invalid otherwise. |
| Views.NewAccountNotSuspended | app.py:106-107 | A freshly created account is never suspended at sign-in. |

## Left out

- SQLite, connections, schema creation, migrations, column sniffing and seed rows are I/O and plumbing. The tables are maps, and a missing column never arises.
- Streamlit rendering, CSS, autorefresh, balloons, the toast text and the QR image are presentation. Toasts are the list of order ids that would be announced.
- `get_all_vendors`, `get_menu`, `toggle_item_availability` and the admin table dumps are plain reads or a flag write with no logic in the core.
- `verify_user`, `verify_vendor` and `verify_admin` are equality look-ups. Sign-in takes their outcome as a boolean.
- The wall clock and `random.randint` are parameters.
- The UTC `CURRENT_TIMESTAMP` against the local `datetime.now()` is environment behaviour. Order time and now share one second count.
- Sub-second precision: `datetime.now()` carries microseconds, while the model's `now` is whole seconds. A slot exactly at the current minute is kept here, but is dropped in the source when any fraction of a second has passed. Likewise, an order `Ready` for exactly 1200 whole seconds plus a fraction is a ghost in the source (app.py:276) but not in the model.
- `strptime` accepts Unicode decimal digits. The model reads only ASCII digits.
- `strftime("%I")` is zero-padded. Platforms that pad with a space are not modelled.
- Clock.ParseHour12: `%I` is read as `1[0-2]`, `0[1-9]` or `[1-9]`. Some Python 3.12 patch releases also accept a space-padded ` [1-9]`, so on them `" 1:30 PM"` reads as 13:30, while the model reads nothing. The `%I` grammar depends on the Python version. No label the app writes has a padded hour.
- The join column `vendor_name` of the student's listing (database.py:217) is not carried. It is a display field that no modelled rule reads. The board's `u.name as student_name` alias (database.py:209) is shadowed by the order's own `student_name` column, since `sqlite3.Row` returns the first column of that name, so the board shows the stored name, as modelled.
- `ORDER BY order_time` leaves ties in an order SQLite chooses. The model breaks ties by id, and its contracts promise only order-time order.
- Clock.ParseClock: its own contract states only that a reading needs a colon after a valid hour. What it reads is stated by `Clock.ClockTextReadsBack` and `Clock.ParseFormatRoundTrip`, for the labels the app writes.
- Store.FirstPrepTime: `fetchone()` without `ORDER BY` returns whichever matching row SQLite yields first. The model takes the first menu row with the name, and `GetItemPrepTimeByName` promises only "some row with that name, or 5".
- The non-atomic read-then-write in `expire_order_with_penalty` and concurrent writers are outside a sequential model.
- Store.ExpireOrderWithPenalty: when the order's owner is not in the users table, the source commits both updates and then fails reading the points. The model returns `OwnerMissing` with the order expired and the users unchanged, in place of the exception.
- Lifecycle.Op: `Deduct` takes a non-negative amount. A negative amount would raise points through `MAX(0, p - amount)`, and nothing in the core passes one.
- The rush multiplier is the float 1.5, and `int(2n * 1.5)` is exact for the queue sizes a canteen sees. The model uses `3n` exactly and does not model float rounding for huge `n`.
- The PIN field's `max_chars=4` input limit is presentation. The registration check `len(pin) == 4` is modelled.

## Findings

| source | as written | input that shows it | evidently intended | confidence | as-written member | corrected member |
|---|---|---|---|---|---|---|
| ai_engine.py:47-53 | The slot label is cut at the first space and read with `%I:%M`, which drops AM/PM. "1:30 PM" becomes 01:30 and "12:00 PM" becomes 00:00. An afternoon slot is kept as its morning hour while that is still ahead, and falls back to now plus the wait once it has passed, which is always the case from noon on. | Slot "1:30 PM" at noon (`now` = 43200) with a 12-minute wait gives 12:12 PM instead of 01:30 PM. | Read the first two words of the label, "10:30 AM" of "10:30 AM Break", as `%I:%M %p`, so an afternoon slot not yet passed is kept as written, with or without a trailing word. | not executed | Predictor.AfternoonSlotIgnored | Predictor.IntendedHonoursLabel |

`Predictor.ResolvePickup` and `Predictor.CalculateWaitTime` follow the code
as written. `Predictor.ResolvePickupIntended` and
`Predictor.CalculateWaitTimeIntended` are the corrected definitions.
`Predictor.IntendedHonoursLabel` proves that the corrected reading keeps any
clock label not earlier than now, alone or followed by a word such as
"Break", and reads it back as its own minute.
`Predictor.AsWrittenIgnoresTrailingWord` shows that, as written, such a word
changes nothing.
`Predictor.AfternoonSlotIgnored` shows both readings on the input above.
`Predictor.OfferedSlotsAsClock` and `Predictor.OfferedSlotsAsWritten` apply
both readings to the slots the order form offers (app.py:219).

=== FILE: clock.dfy ===
/** Times of day as the canteen core reads and writes them: the `%I:%M`
    pickup-slot grammar, the `%I:%M %p` twelve-hour clock grammar and the
    `strftime("%I:%M %p")` formatter, over integer minutes and seconds. */
module Clock {
  import opened Text

  const SecondsPerDay: int := 86400
  const MinutesPerDay: int := 1440
  /** Minutes of day before noon (hours 0..11 print with `AM`). */
  const MinutesBeforeNoon: int := 720

  type SecondOfDay = s: int | 0 <= s < 86400
  type MinuteOfDay = m: int | 0 <= m < 1440

  /** The minute of day shown for an instant `t` counted in seconds from some
      midnight; instants before or after that day wrap to their own day. */
  function MinuteOf(t: int): (m: MinuteOfDay)
    ensures m * 60 <= t % SecondsPerDay < m * 60 + 60
  {
    (t % SecondsPerDay) / 60
  }

  /** `%I`: one of the alternatives `1[0-2]`, `0[1-9]` or `[1-9]` (the
      space-padded ` [1-9]` that some Python versions accept is left out). */
  function ParseHour12(s: string): (r: Option<int>)
    ensures r.Some? <==> 1 <= |s| <= 2 && AllDigits(s) && 1 <= DigitsValue(s) <= 12
    ensures r.Some? ==> r.value == DigitsValue(s)
  {
    DigitsValueShort(s);
    if |s| == 2 && s[0] == '1' && '0' <= s[1] <= '2' then Some(10 + (s[1] as int - '0' as int))
    else if |s| == 2 && s[0] == '0' && '1' <= s[1] <= '9' then Some(s[1] as int - '0' as int)
    else if |s| == 1 && '1' <= s[0] <= '9' then Some(s[0] as int - '0' as int)
    else None
  }

  /** `%M`: one of the alternatives `[0-5]\d` or `\d`. */
  function ParseMinute(s: string): (r: Option<int>)
    ensures r.Some? <==> 1 <= |s| <= 2 && AllDigits(s) && DigitsValue(s) <= 59
    ensures r.Some? ==> r.value == DigitsValue(s)
  {
    DigitsValueShort(s);
    if |s| == 2 && '0' <= s[0] <= '5' && IsDigit(s[1]) then
      Some((s[0] as int - '0' as int) * 10 + (s[1] as int - '0' as int))
    else if |s| == 1 && IsDigit(s[0]) then Some(s[0] as int - '0' as int)
    else None
  }

  /** `%p` matched case-insensitively against `am|pm`: `Some(true)` for PM. */
  function ParseMeridiem(s: string): (r: Option<bool>)
    ensures r.Some? <==> |s| == 2 && s[0] in "aApP" && s[1] in "mM"
    ensures r == Some(true) <==> |s| == 2 && s[0] in "pP" && s[1] in "mM"
  {
    if |s| == 2 && (s[1] == 'm' || s[1] == 'M') then
      if s[0] == 'a' || s[0] == 'A' then Some(false)
      else if s[0] == 'p' || s[0] == 'P' then Some(true)
      else None
    else None
  }

  /** `strptime(token, "%I:%M")`: the whole token must be hour, colon and
      minute. With no `%p` in the format an hour written `12` becomes hour 0
      and every other hour is kept, so the result is always a morning time. */
  function ParseSlotToken(tok: string): (r: Option<MinuteOfDay>)
    ensures r.Some? ==> r.value < MinutesBeforeNoon
    ensures r.Some? ==> exists i :: SlotSplit(tok, i)
    ensures forall i :: SlotSplit(tok, i) ==>
      r == Some((ParseHour12(tok[..i]).value % 12) * 60 + ParseMinute(tok[i + 1..]).value)
  {
    match IndexOf(tok, ':')
    case None => None
    case Some(i) =>
      SlotSplitsAtFirstColon(tok, i);
      match (ParseHour12(tok[..i]), ParseMinute(tok[i + 1..]))
      case (Some(h), Some(m)) =>
        assert SlotSplit(tok, i);
        Some((h % 12) * 60 + m)
      case _ => None
  }

  /** A token split at `i` into hour `h` and minute `m` reads as `h % 12`
      hours and `m` minutes. */
  lemma SlotTokenReads(tok: string, i: int, h: int, m: int, v: int)
    requires SlotSplit(tok, i) && ParseHour12(tok[..i]) == Some(h) && ParseMinute(tok[i + 1..]) == Some(m)
    requires v == (h % 12) * 60 + m
    ensures ParseSlotToken(tok) == Some(v)
  {
  }

  /** Only the first colon can split a slot token: a later one would leave
      a colon inside the all-digit hour. */
  lemma SlotSplitsAtFirstColon(tok: string, i: nat)
    requires i < |tok| && tok[i] == ':' && ':' !in tok[..i]
    ensures forall j :: SlotSplit(tok, j) ==> j == i
  {
    forall j | SlotSplit(tok, j) ensures j == i {
    }
  }

  /** `tok` reads as `%I:%M` when split at position `i`. */
  predicate SlotSplit(tok: string, i: int) {
    0 <= i < |tok| && tok[i] == ':' && ParseHour12(tok[..i]).Some? && ParseMinute(tok[i + 1..]).Some?
  }

  /** Minute of the day of a twelve-hour reading: hour 12 counts as 0, and
      the afternoon adds twelve hours. */
  function ClockValue(h: int, mm: int, pm: bool): int {
    (h % 12 + (if pm then 12 else 0)) * 60 + mm
  }

  /** `strptime(text, "%I:%M %p")`: hour, colon, minute, one or more
      whitespace characters and `AM`/`PM` in any letter case, with nothing
      after it. The result is the minute of day in the 24-hour sense. */
  function ParseClock(text: string): (r: Option<MinuteOfDay>)
    ensures r.Some? ==> exists i :: 0 <= i < |text| && text[i] == ':' && ParseHour12(text[..i]).Some?
  {
    match IndexOf(text, ':')
    case None => None
    case Some(i) =>
      var rest := text[i + 1..];
      var j := DigitRun(rest);
      var tail := rest[j..];
      var k := SpaceRun(tail);
      if k == 0 then None
      else
        match (ParseHour12(text[..i]), ParseMinute(rest[..j]), ParseMeridiem(tail[k..]))
        case (Some(h), Some(m), Some(pm)) => Some(ClockValue(h, m, pm))
        case _ => None
  }

  /** The hour as a twelve-hour clock shows it: 0 and 12 show as 12. */
  function TwelveHour(h: int): (h12: int)
    requires 0 <= h < 24
    ensures 1 <= h12 <= 12 && h12 % 12 == h % 12
  {
    if h % 12 == 0 then 12 else h % 12
  }

  /** `strftime("%I:%M %p")` of the instant `t` (seconds from a midnight). */
  function FormatClock(t: int): (r: string)
    ensures |r| == 8 && r[2] == ':' && r[5] == ' ' && r[7] == 'M'
    ensures AllDigits(r[..2]) && 1 <= DigitsValue(r[..2]) <= 12
    ensures AllDigits(r[3..5]) && DigitsValue(r[3..5]) == MinuteOf(t) % 60
    ensures r[6] == 'A' || r[6] == 'P'
    ensures r[6] == 'A' <==> MinuteOf(t) < MinutesBeforeNoon
    ensures DigitsValue(r[..2]) % 12 == (MinuteOf(t) / 60) % 12
  {
    var m := MinuteOf(t);
    var hh := Pad2(TwelveHour(m / 60));
    var mm := Pad2(m % 60);
    var ap := if m < MinutesBeforeNoon then "AM" else "PM";
    var r := hh + ":" + mm + " " + ap;
    assert |hh| == 2 && |mm| == 2 && |ap| == 2;
    assert r[..2] == hh by {
      assert forall k :: 0 <= k < 2 ==> r[k] == hh[k];
    }
    assert r[3..5] == mm by {
      assert forall k :: 0 <= k < 2 ==> r[3 + k] == mm[k];
    }
    r
  }

  /** Reading back a formatted clock gives the minute of day it was made
      from: the stored pickup string loses only the seconds. */
  lemma ParseFormatRoundTrip(t: int)
    ensures ParseClock(FormatClock(t)) == Some(MinuteOf(t))
  {
    ClockTextReadsBack(FormatClock(t), MinuteOf(t));
  }

  /** Any text laid out the way `FormatClock` lays out minute `m` reads as `m`. */
  lemma ClockTextReadsBack(r: string, m: MinuteOfDay)
    requires |r| == 8 && r[2] == ':' && r[5] == ' ' && r[7] == 'M'
    requires AllDigits(r[..2]) && 1 <= DigitsValue(r[..2]) <= 12
    requires AllDigits(r[3..5]) && DigitsValue(r[3..5]) == m % 60
    requires r[6] == 'A' || r[6] == 'P'
    requires r[6] == 'A' <==> m < MinutesBeforeNoon
    requires DigitsValue(r[..2]) % 12 == (m / 60) % 12
    ensures ParseClock(r) == Some(m)
  {
    var h12 := DigitsValue(r[..2]);
    ClockFieldsRead(r, m % 60, m >= MinutesBeforeNoon);
    ParseTwelveHourShape(r, h12, m % 60, m >= MinutesBeforeNoon);
    TwelveHourArithmetic(m, h12);
  }

  /** The three fields of a `hh:mm xM` text, each read on its own. */
  lemma ClockFieldsRead(r: string, mm: int, pm: bool)
    requires |r| == 8 && r[7] == 'M' && (r[6] == 'P' <==> pm) && (r[6] == 'A' || r[6] == 'P')
    requires AllDigits(r[..2]) && 1 <= DigitsValue(r[..2]) <= 12
    requires AllDigits(r[3..5]) && DigitsValue(r[3..5]) == mm && mm < 60
    ensures ParseHour12(r[..2]) == Some(DigitsValue(r[..2]))
    ensures ParseMinute(r[3..5]) == Some(mm)
    ensures ParseMeridiem(r[6..]) == Some(pm) && !IsSpace(r[6])
  {
    assert r[6..] == [r[6], 'M'];
  }

  lemma TwelveHourArithmetic(m: MinuteOfDay, h12: int)
    requires h12 % 12 == (m / 60) % 12
    ensures ClockValue(h12, m % 60, m >= MinutesBeforeNoon) == m
  {
    var h := m / 60;
    assert h * 60 + m % 60 == m;
    if h >= 12 {
      assert h % 12 == h - 12;
    } else {
      assert h % 12 == h;
    }
  }

  /** A string shaped `hh:mm xM` is read through its three fields. */
  lemma ParseTwelveHourShape(r: string, h: int, mm: int, pm: bool)
    requires |r| == 8 && r[2] == ':' && r[5] == ' ' && !IsSpace(r[6])
    requires AllDigits(r[..2]) && AllDigits(r[3..5])
    requires ParseHour12(r[..2]) == Some(h) && ParseMinute(r[3..5]) == Some(mm)
    requires ParseMeridiem(r[6..]) == Some(pm)
    ensures ParseClock(r) == Some(ClockValue(h, mm, pm))
  {
    assert r[..2][0] == r[0] && r[..2][1] == r[1];
    assert IndexOf(r, ':') == Some(2);
    var rest := r[3..];
    assert rest[..2] == r[3..5];
    assert DigitRun(rest) == 2;
    var tail := rest[2..];
    assert tail == r[5..];
    assert SpaceRun(tail) == 1;
    assert tail[1..] == r[6..];
  }

  /** A string shaped `h:mm xM` (one-digit hour) is read through its three fields. */
  lemma ParseShortTwelveHourShape(r: string, h: int, mm: int, pm: bool)
    requires |r| == 7 && r[1] == ':' && r[4] == ' ' && !IsSpace(r[5])
    requires AllDigits(r[2..4])
    requires ParseHour12(r[..1]) == Some(h) && ParseMinute(r[2..4]) == Some(mm)
    requires ParseMeridiem(r[5..]) == Some(pm)
    ensures ParseClock(r) == Some(ClockValue(h, mm, pm))
  {
    assert r[..1][0] == r[0];
    assert IndexOf(r, ':') == Some(1);
    var rest := r[2..];
    assert rest[..2] == r[2..4];
    assert DigitRun(rest) == 2;
    var tail := rest[2..];
    assert tail == r[4..];
    assert SpaceRun(tail) == 1;
    assert tail[1..] == r[5..];
  }

  /** Read with the slot grammar `%I:%M`, the `hh:mm` part of a formatted
      clock gives the same time of day shifted into the morning: the
      afternoon hours lose their twelve. */
  lemma SlotReadsMorningTwin(t: int)
    ensures ParseSlotToken(FormatClock(t)[..5]) == Some(MinuteOf(t) % MinutesBeforeNoon)
  {
    var r := FormatClock(t);
    var tok := r[..5];
    assert tok[..2] == r[..2] && tok[3..] == r[3..5];
    SlotTextReads(tok, MinuteOf(t));
  }

  /** Any `hh:mm` text with an hour congruent to `m`'s and `m`'s minute
      reads, under `%I:%M`, as `m` moved into the morning. */
  lemma SlotTextReads(tok: string, m: MinuteOfDay)
    requires |tok| == 5 && tok[2] == ':'
    requires AllDigits(tok[..2]) && 1 <= DigitsValue(tok[..2]) <= 12
    requires AllDigits(tok[3..]) && DigitsValue(tok[3..]) == m % 60
    requires DigitsValue(tok[..2]) % 12 == (m / 60) % 12
    ensures ParseSlotToken(tok) == Some(m % MinutesBeforeNoon)
  {
    DigitsValueShort(tok[..2]);
    DigitsValueShort(tok[3..]);
    assert SlotSplit(tok, 2);
    MorningTwinArithmetic(m, DigitsValue(tok[..2]));
  }

  lemma MorningTwinArithmetic(m: MinuteOfDay, h12: int)
    requires h12 % 12 == (m / 60) % 12
    ensures (h12 % 12) * 60 + m % 60 == m % MinutesBeforeNoon
  {
    var h := m / 60;
    assert h * 60 + m % 60 == m;
    if h >= 12 {
      assert h % 12 == h - 12;
      assert m - MinutesBeforeNoon == (h - 12) * 60 + m % 60;
    } else {
      assert h % 12 == h;
    }
  }
}

=== FILE: lifecycle.dfy ===
/** Facts about sequences of store writes: the validity invariant (karma in
    [0, 100], orders filed under their ids), what a write may and may not
    change, and how each write moves a vendor's active-order count. */
module Lifecycle {
  import opened Text
  import opened Store

  /** The order and user writes `database.py` offers to its callers. */
  datatype Op =
    | Register(roll: string, name: string, pin: string)
    | PlaceOrder(userId: string, vendorId: int, itemName: string, prediction: string, suffix: TokenSuffix, now: int)
    | SetStatus(orderId: nat, status: Status)
    | NoShow(orderId: nat)
    | Deduct(roll: string, amount: nat)

  function Apply(s: Store, op: Op): Store {
    match op
    case Register(roll, name, pin) => RegisterUser(s, roll, name, pin).0
    case PlaceOrder(u, v, item, p, suffix, now) => AddOrder(s, u, v, item, p, suffix, now).0
    case SetStatus(id, st) => UpdateStatus(s, id, st)
    case NoShow(id) => ExpireOrderWithPenalty(s, id).0
    case Deduct(roll, amount) => DeductPoints(s, roll, amount)
  }

  function Run(s: Store, ops: seq<Op>): Store
    decreases |ops|
  {
    if ops == [] then s else Run(Apply(s, ops[0]), ops[1..])
  }

  /** The empty database after seeding: no users, no orders, ids from 1. */
  function Seeded(vendors: map<int, string>, menu: seq<MenuItem>): (s: Store)
    ensures Valid(s)
    ensures forall v :: VendorActiveCount(s, v) == 0
  {
    Store(map[], vendors, menu, map[], 1)
  }

  /** Every single write keeps the store valid. */
  lemma ApplyPreservesValid(s: Store, op: Op)
    requires Valid(s)
    ensures Valid(Apply(s, op))
  {
    match op
    case Register(roll, name, pin) =>
      var _ := RegisterUser(s, roll, name, pin);
    case PlaceOrder(u, v, item, p, suffix, now) =>
      var _ := AddOrder(s, u, v, item, p, suffix, now);
    case SetStatus(id, st) =>
      var _ := UpdateStatus(s, id, st);
    case NoShow(id) =>
      var _ := ExpireOrderWithPenalty(s, id);
    case Deduct(roll, amount) =>
      var _ := DeductPoints(s, roll, amount);
  }

  /** Any sequence of writes keeps karma within [0, 100] and orders filed
      under their own ids. */
  lemma {:induction false} RunPreservesValid(s: Store, ops: seq<Op>)
    requires Valid(s)
    ensures Valid(Run(s, ops))
    decreases |ops|
  {
    if ops != [] {
      ApplyPreservesValid(s, ops[0]);
      RunPreservesValid(Apply(s, ops[0]), ops[1..]);
    }
  }

  /** No write removes an order or changes anything of it but its status:
      in particular the predicted pickup string is never recomputed. */
  lemma ApplyKeepsOrderRecords(s: Store, op: Op, id: nat)
    requires Valid(s) && id in s.orders
    ensures id in Apply(s, op).orders
    ensures Apply(s, op).orders[id] == s.orders[id].(status := Apply(s, op).orders[id].status)
  {
  }

  /** No write raises anyone's karma or forgets a user. */
  lemma ApplyNeverRaisesKarma(s: Store, op: Op, roll: string)
    requires Valid(s) && roll in s.users
    ensures roll in Apply(s, op).users
    ensures Apply(s, op).users[roll].points <= s.users[roll].points
  {
    match op
    case Register(r, name, pin) =>
      RegisterKeepsKarma(s, r, name, pin, roll);
    case PlaceOrder(u, v, item, p, suffix, now) =>
      var _ := AddOrder(s, u, v, item, p, suffix, now);
    case SetStatus(id, st) =>
      var _ := UpdateStatus(s, id, st);
    case NoShow(id) =>
      ExpireKeepsKarma(s, id, roll);
    case Deduct(r, amount) =>
      DeductKeepsKarma(s, r, amount, roll);
  }

  lemma RegisterKeepsKarma(s: Store, r: string, name: string, pin: string, roll: string)
    requires roll in s.users
    ensures roll in RegisterUser(s, r, name, pin).0.users
    ensures RegisterUser(s, r, name, pin).0.users[roll] == s.users[roll]
  {
  }

  lemma ExpireKeepsKarma(s: Store, id: nat, roll: string)
    requires Valid(s) && roll in s.users
    ensures roll in ExpireOrderWithPenalty(s, id).0.users
    ensures ExpireOrderWithPenalty(s, id).0.users[roll].points <= s.users[roll].points
  {
  }

  lemma DeductKeepsKarma(s: Store, r: string, amount: nat, roll: string)
    requires Valid(s) && roll in s.users
    ensures roll in DeductPoints(s, r, amount).users
    ensures DeductPoints(s, r, amount).users[roll].points <= s.users[roll].points
  {
  }

  /** Over any run, every stored order keeps its token, owner, vendor, item,
      order time and predicted pickup, and every user's karma only falls. */
  lemma {:induction false} RunKeepsRecords(s: Store, ops: seq<Op>)
    requires Valid(s)
    ensures forall id :: id in s.orders ==>
      id in Run(s, ops).orders && Run(s, ops).orders[id] == s.orders[id].(status := Run(s, ops).orders[id].status)
    ensures forall r :: r in s.users ==> r in Run(s, ops).users && Run(s, ops).users[r].points <= s.users[r].points
    decreases |ops|
  {
    if ops != [] {
      var s1 := Apply(s, ops[0]);
      forall id | id in s.orders ensures id in s1.orders && s1.orders[id] == s.orders[id].(status := s1.orders[id].status) {
        ApplyKeepsOrderRecords(s, ops[0], id);
      }
      forall r | r in s.users ensures r in s1.users && s1.users[r].points <= s.users[r].points {
        ApplyNeverRaisesKarma(s, ops[0], r);
      }
      RunKeepsRecords(s1, ops[1..]);
    }
  }

  // ---------------------------------------------------------------------
  // Active-order counts

  /** 1 when the filter keeps the order, else 0. */
  function Kept(f: RowFilter, o: Order): nat {
    if Keeps(f, o) then 1 else 0
  }

  lemma {:induction false} RowsBelowAgree(m1: map<nat, Order>, m2: map<nat, Order>, hi: nat)
    requires forall id :: id < hi ==> (id in m1 <==> id in m2)
    requires forall id :: id < hi && id in m1 ==> m1[id] == m2[id]
    ensures RowsBelow(m1, hi) == RowsBelow(m2, hi)
  {
    if hi > 0 {
      RowsBelowAgree(m1, m2, hi - 1);
    }
  }

  /** The number of stored rows below `hi` that the filter keeps, counted
      id by id without building the listing. */
  function CountBelow(m: map<nat, Order>, hi: nat, f: RowFilter): nat {
    if hi == 0 then 0
    else CountBelow(m, hi - 1, f) + (if hi - 1 in m then Kept(f, m[hi - 1]) else 0)
  }

  lemma {:induction false} SelectCountsRows(m: map<nat, Order>, hi: nat, f: RowFilter)
    ensures |Select(RowsBelow(m, hi), f)| == CountBelow(m, hi, f)
  {
    if hi > 0 {
      SelectCountsRows(m, hi - 1, f);
      if hi - 1 in m {
        SelectSnoc(RowsBelow(m, hi - 1), m[hi - 1], f);
      } else {
        assert RowsBelow(m, hi) == RowsBelow(m, hi - 1);
      }
    }
  }

  lemma {:induction false} CountAgree(m1: map<nat, Order>, m2: map<nat, Order>, hi: nat, f: RowFilter)
    requires forall id :: id < hi ==> (id in m1 <==> id in m2)
    requires forall id :: id < hi && id in m1 ==> m1[id] == m2[id]
    ensures CountBelow(m1, hi, f) == CountBelow(m2, hi, f)
  {
    if hi > 0 {
      CountAgree(m1, m2, hi - 1, f);
    }
  }

  /** Replacing one stored row moves a filtered count by the difference of
      what the filter makes of the old and the new row. */
  lemma {:induction false} CountAfterReplace(m: map<nat, Order>, id: nat, o: Order, hi: nat, f: RowFilter)
    requires id in m && id < hi
    ensures CountBelow(m[id := o], hi, f) + Kept(f, m[id]) == CountBelow(m, hi, f) + Kept(f, o)
  {
    if hi - 1 == id {
      CountAgree(m, m[id := o], hi - 1, f);
    } else {
      CountAfterReplace(m, id, o, hi - 1, f);
    }
  }

  /** Placing an order adds it as the last row of the table. */
  lemma AddOrderAppendsRow(s: Store, userId: string, vendorId: int, itemName: string, prediction: string,
                           suffix: TokenSuffix, now: int)
    requires Valid(s)
    ensures var s' := AddOrder(s, userId, vendorId, itemName, prediction, suffix, now).0;
      Rows(s') == Rows(s) + [s'.orders[s.nextId]]
  {
    var s' := AddOrder(s, userId, vendorId, itemName, prediction, suffix, now).0;
    RowsBelowExtend(s.orders, s'.orders, s.nextId);
  }

  /** A map that agrees below `hi` and gains a row at `hi` lists one more row. */
  lemma RowsBelowExtend(m1: map<nat, Order>, m2: map<nat, Order>, hi: nat)
    requires forall id :: id < hi ==> (id in m1 <==> id in m2)
    requires forall id :: id < hi && id in m1 ==> m1[id] == m2[id]
    requires hi in m2
    ensures RowsBelow(m2, hi + 1) == RowsBelow(m1, hi) + [m2[hi]]
  {
    RowsBelowAgree(m1, m2, hi);
  }

  /** Placing an order raises its vendor's active count by one and leaves
      every other vendor's count alone. */
  lemma AddOrderCount(s: Store, userId: string, vendorId: int, itemName: string, prediction: string,
                      suffix: TokenSuffix, now: int, v: int)
    requires Valid(s)
    ensures VendorActiveCount(AddOrder(s, userId, vendorId, itemName, prediction, suffix, now).0, v)
         == VendorActiveCount(s, v) + (if v == vendorId then 1 else 0)
  {
    var s' := AddOrder(s, userId, vendorId, itemName, prediction, suffix, now).0;
    AddOrderAppendsRow(s, userId, vendorId, itemName, prediction, suffix, now);
    SelectSnoc(Rows(s), s'.orders[s.nextId], QueueOf(v));
  }

  /** A status overwrite moves the order's vendor count by one exactly when
      it crosses between active and terminal, and no other count moves. */
  lemma UpdateStatusCount(s: Store, id: nat, st: Status, v: int)
    requires Valid(s) && id in s.orders
    ensures VendorActiveCount(UpdateStatus(s, id, st), v) + Kept(QueueOf(v), s.orders[id])
         == VendorActiveCount(s, v) + Kept(QueueOf(v), s.orders[id].(status := st))
  {
    SelectCountsRows(s.orders, s.nextId, QueueOf(v));
    SelectCountsRows(UpdateStatus(s, id, st).orders, s.nextId, QueueOf(v));
    CountAfterReplace(s.orders, id, s.orders[id].(status := st), s.nextId, QueueOf(v));
  }

  /** A no-show on an active order takes it out of its vendor's count. */
  lemma ExpireCount(s: Store, id: nat)
    requires Valid(s) && id in s.orders && IsActive(s.orders[id].status)
    ensures var v := s.orders[id].vendorId;
      VendorActiveCount(ExpireOrderWithPenalty(s, id).0, v) + 1 == VendorActiveCount(s, v)
  {
    var v := s.orders[id].vendorId;
    SelectCountsRows(s.orders, s.nextId, QueueOf(v));
    SelectCountsRows(ExpireOrderWithPenalty(s, id).0.orders, s.nextId, QueueOf(v));
    CountAfterReplace(s.orders, id, s.orders[id].(status := Expired), s.nextId, QueueOf(v));
  }

  /** The ids of the stored rows below `hi` that the filter keeps. */
  function KeptIds(m: map<nat, Order>, hi: nat, f: RowFilter): set<nat> {
    set id | id in m && id < hi && Keeps(f, m[id])
  }

  lemma {:induction false} CountIsKeptIds(m: map<nat, Order>, hi: nat, f: RowFilter)
    ensures CountBelow(m, hi, f) == |KeptIds(m, hi, f)|
  {
    if hi == 0 {
      assert KeptIds(m, hi, f) == {};
    } else {
      CountIsKeptIds(m, hi - 1, f);
      if hi - 1 in m && Keeps(f, m[hi - 1]) {
        assert KeptIds(m, hi, f) == KeptIds(m, hi - 1, f) + {hi - 1};
      } else {
        assert KeptIds(m, hi, f) == KeptIds(m, hi - 1, f);
      }
    }
  }

  /** The vendor count is the number of distinct stored orders of that
      vendor whose status is neither `Collected` nor `Expired`. */
  lemma VendorActiveCountIsCardinality(s: Store, v: int)
    requires Valid(s)
    ensures VendorActiveCount(s, v)
         == |set id | id in s.orders && s.orders[id].vendorId == v && IsActive(s.orders[id].status)|
  {
    SelectCountsRows(s.orders, s.nextId, QueueOf(v));
    CountIsKeptIds(s.orders, s.nextId, QueueOf(v));
    assert KeptIds(s.orders, s.nextId, QueueOf(v))
        == set id | id in s.orders && s.orders[id].vendorId == v && IsActive(s.orders[id].status);
  }

  lemma {:induction false} ListedWithinQueue(xs: seq<Order>, v: int, users: set<string>)
    ensures |Select(xs, ListedFor(v, users))| <= |Select(xs, QueueOf(v))|
    ensures (forall o :: o in xs && Keeps(QueueOf(v), o) ==> o.userId in users) ==>
      |Select(xs, ListedFor(v, users))| == |Select(xs, QueueOf(v))|
  {
    if xs != [] {
      var front := xs[..|xs| - 1];
      assert xs == front + [xs[|xs| - 1]];
      ListedWithinQueue(front, v, users);
    }
  }

  /** The vendor board never shows more orders than the count the predictor
      reads, and shows all of them when every owner is a known user. */
  lemma VendorOrdersAgainstCount(s: Store, v: int)
    ensures |VendorOrders(s, v)| <= VendorActiveCount(s, v)
    ensures (forall o :: o in Rows(s) && o.vendorId == v && IsActive(o.status) ==> o.userId in s.users) ==>
      |VendorOrders(s, v)| == VendorActiveCount(s, v)
  {
    ListedWithinQueue(Rows(s), v, s.users.Keys);
  }

  /** A stored order of a registered student is on its vendor's board
      exactly while it is active. */
  lemma ListedWhileActive(s: Store, id: nat)
    requires Valid(s) && id in s.orders && s.orders[id].userId in s.users
    ensures s.orders[id] in VendorOrders(s, s.orders[id].vendorId) <==> IsActive(s.orders[id].status)
  {
    assert s.orders[id] in s.orders.Values;
  }

  /** A status overwrite on a stored order of a registered student lists
      it on its vendor's board exactly when the new status is active. */
  lemma ListedAfterUpdate(s: Store, id: nat, st: Status)
    requires Valid(s) && id in s.orders && s.orders[id].userId in s.users
    ensures var s' := UpdateStatus(s, id, st);
      && Valid(s') && id in s'.orders && s'.orders[id] == s.orders[id].(status := st)
      && s'.orders[id].userId in s'.users
      && (s'.orders[id] in VendorOrders(s', s.orders[id].vendorId) <==> IsActive(st))
  {
    ListedWhileActive(UpdateStatus(s, id, st), id);
  }

  /** An order placed by a registered student stays on the vendor board
      through `Cooking` and `Ready`, leaves it once `Collected`, and keeps
      the predicted pickup it was placed with. */
  lemma PlacedOrderListedUntilCollected(s: Store, userId: string, vendorId: int, itemName: string,
                                        prediction: string, suffix: TokenSuffix, now: int)
    requires Valid(s) && Strip(userId) in s.users
    ensures var id := s.nextId;
      var s1 := AddOrder(s, userId, vendorId, itemName, prediction, suffix, now).0;
      var s2 := UpdateStatus(s1, id, Cooking);
      var s3 := UpdateStatus(s2, id, Ready);
      var s4 := UpdateStatus(s3, id, Collected);
      && s1.orders[id] in VendorOrders(s1, vendorId)
      && s2.orders[id] in VendorOrders(s2, vendorId)
      && s3.orders[id] in VendorOrders(s3, vendorId)
      && s4.orders[id] !in VendorOrders(s4, vendorId)
      && s4.orders[id].predictedPickup == prediction
  {
    var id := s.nextId;
    var s1 := AddOrder(s, userId, vendorId, itemName, prediction, suffix, now).0;
    assert Valid(s1) && id in s1.orders && s1.orders[id].userId in s1.users
      && s1.orders[id].vendorId == vendorId && s1.orders[id].status == Received
      && s1.orders[id].predictedPickup == prediction;
    ListedThroughService(s1, id);
  }

  /** A received order of a registered student, walked through `Cooking`,
      `Ready` and `Collected`: listed at every step but the last. */
  lemma ListedThroughService(s1: Store, id: nat)
    requires Valid(s1) && id in s1.orders && s1.orders[id].userId in s1.users && s1.orders[id].status == Received
    ensures var v := s1.orders[id].vendorId;
      var s2 := UpdateStatus(s1, id, Cooking);
      var s3 := UpdateStatus(s2, id, Ready);
      var s4 := UpdateStatus(s3, id, Collected);
      && s1.orders[id] in VendorOrders(s1, v)
      && s2.orders[id] in VendorOrders(s2, v)
      && s3.orders[id] in VendorOrders(s3, v)
      && s4.orders[id] !in VendorOrders(s4, v)
      && s4.orders[id].predictedPickup == s1.orders[id].predictedPickup
  {
    ListedWhileActive(s1, id);
    ListedAfterUpdate(s1, id, Cooking);
    var s2 := UpdateStatus(s1, id, Cooking);
    ListedAfterUpdate(s2, id, Ready);
    var s3 := UpdateStatus(s2, id, Ready);
    ListedAfterUpdate(s3, id, Collected);
  }

  /** One status overwrite on an order of vendor `v`, as seen by `v`'s count. */
  lemma CountAfterStep(s: Store, id: nat, st: Status, v: int)
    requires Valid(s) && id in s.orders && s.orders[id].vendorId == v
    ensures var s' := UpdateStatus(s, id, st);
      && Valid(s') && id in s'.orders && s'.orders[id].vendorId == v && s'.orders[id].status == st
      && VendorActiveCount(s', v) + (if IsActive(s.orders[id].status) then 1 else 0)
         == VendorActiveCount(s, v) + (if IsActive(st) then 1 else 0)
  {
    UpdateStatusCount(s, id, st, v);
  }

  /** Over the same journey the vendor's active count rises by one at
      placement and returns to where it was at collection. */
  lemma PlacedOrderCountReturns(s: Store, userId: string, vendorId: int, itemName: string,
                                prediction: string, suffix: TokenSuffix, now: int)
    requires Valid(s)
    ensures var id := s.nextId;
      var s1 := AddOrder(s, userId, vendorId, itemName, prediction, suffix, now).0;
      var s2 := UpdateStatus(s1, id, Cooking);
      var s3 := UpdateStatus(s2, id, Ready);
      var s4 := UpdateStatus(s3, id, Collected);
      && VendorActiveCount(s3, vendorId) == VendorActiveCount(s, vendorId) + 1
      && VendorActiveCount(s4, vendorId) == VendorActiveCount(s, vendorId)
  {
    var id := s.nextId;
    var s1 := AddOrder(s, userId, vendorId, itemName, prediction, suffix, now).0;
    AddOrderCount(s, userId, vendorId, itemName, prediction, suffix, now, vendorId);
    CountAfterStep(s1, id, Cooking, vendorId);
    var s2 := UpdateStatus(s1, id, Cooking);
    CountAfterStep(s2, id, Ready, vendorId);
    var s3 := UpdateStatus(s2, id, Ready);
    CountAfterStep(s3, id, Collected, vendorId);
  }
}

=== FILE: predictor.dfy ===
/** The wait-time predictor of `ai_engine.py`: integer queue arithmetic over
    a vendor's active-order count, resolution of the requested pickup slot to
    an instant, and the breakdown record shown to the student. The clock
    reading `now` is a parameter, in seconds since midnight. */
module Predictor {
  import opened Text
  import opened Clock
  import opened Store

  const Immediate: string := "Immediate"
  /** More active orders than this is a rush. */
  const RushThreshold: nat := 10
  const MinutesPerQueuedOrder: nat := 2
  const BufferMinutes: int := 2
  /** The constant added to the queue delay in the vendor's average wait. */
  const StatsBaseMinutes: int := 5

  /** The labels the order form offers as a targeted pickup. */
  const OfferedSlots: seq<string> := ["Immediate", "10:30 AM", "12:00 PM", "1:30 PM", "3:00 PM"]

  predicate IsRush(activeOrders: nat) {
    activeOrders > RushThreshold
  }

  /** Two minutes for every active order of the vendor. */
  function QueueDelay(activeOrders: nat): nat {
    activeOrders * MinutesPerQueuedOrder
  }

  /** `int(queue_delay * multiplier)` with multiplier 1.5 in a rush and 1.0
      otherwise. The queue delay is even, so the product is a whole number
      and `int` drops nothing. */
  function AdjustedQueueDelay(activeOrders: nat): (d: nat)
    ensures 2 * d == (if IsRush(activeOrders) then 3 else 2) * QueueDelay(activeOrders)
  {
    if IsRush(activeOrders) then 3 * activeOrders else QueueDelay(activeOrders)
  }

  /** Prep time plus adjusted queue delay plus the two-minute buffer. */
  function TotalWait(activeOrders: nat, prep: int): (minutes: int)
    ensures !IsRush(activeOrders) ==> minutes == prep + 2 * activeOrders + BufferMinutes
    ensures IsRush(activeOrders) ==> minutes == prep + 3 * activeOrders + BufferMinutes
  {
    prep + AdjustedQueueDelay(activeOrders) + BufferMinutes
  }

  /** The promised wait never shrinks as the queue or the prep time grows,
      and crossing into a rush costs at least the 13 extra minutes of the
      jump from 10 to 11 orders. */
  lemma TotalWaitMonotone(n1: nat, n2: nat, prep1: int, prep2: int)
    requires n1 <= n2 && prep1 <= prep2
    ensures TotalWait(n1, prep1) <= TotalWait(n2, prep2)
    ensures !IsRush(n1) && IsRush(n2) ==> TotalWait(n2, prep1) - TotalWait(n1, prep1) >= 13
  {
  }

  /** The rush boundary and the queue delays either side of it. */
  lemma RushBoundaryExamples()
    ensures !IsRush(10) && IsRush(11)
    ensures AdjustedQueueDelay(10) == 20 && AdjustedQueueDelay(11) == 33 && AdjustedQueueDelay(12) == 36
    ensures TotalWait(0, 10) == 12
  {
  }

  // ---------------------------------------------------------------------
  // Pickup slot resolution

  /** The instant (seconds from today's midnight) reached by waiting
      `minutes` from `now`. */
  function Fallback(now: SecondOfDay, minutes: int): int {
    now + 60 * minutes
  }

  /** Pickup slot resolution as written: the text before the first space is
      read as `%I:%M`, with no AM/PM, so every slot is read as a morning time;
      it is used when it is not earlier than `now`, and otherwise, or when
      the text does not parse, the pickup is `minutes` after `now`. */
  function ResolvePickup(target: string, now: SecondOfDay, minutes: int): (t: int)
    ensures target == Immediate ==> t == Fallback(now, minutes)
    ensures minutes >= 0 ==> t >= now
    ensures t != Fallback(now, minutes) ==>
      && target != Immediate
      && ParseSlotToken(FirstWord(target)).Some?
      && t == ParseSlotToken(FirstWord(target)).value * 60
      && now <= t < MinutesBeforeNoon * 60
    ensures (target != Immediate && ParseSlotToken(FirstWord(target)).Some? &&
             ParseSlotToken(FirstWord(target)).value * 60 >= now) ==>
      t == ParseSlotToken(FirstWord(target)).value * 60
  {
    if target == Immediate then Fallback(now, minutes)
    else
      match ParseSlotToken(FirstWord(target))
      case Some(m) => if m * 60 < now then Fallback(now, minutes) else m * 60
      case None => Fallback(now, minutes)
  }

  /** Pickup slot resolution as intended: the first two words of the slot
      label, "10:30 AM" of "10:30 AM Break", are read as the twelve-hour
      clock `%I:%M %p` they are written in. */
  function ResolvePickupIntended(target: string, now: SecondOfDay, minutes: int): (t: int)
    ensures target == Immediate ==> t == Fallback(now, minutes)
    ensures minutes >= 0 ==> t >= now
    ensures t != Fallback(now, minutes) ==>
      && target != Immediate
      && ParseClock(FirstTwoWords(target)).Some?
      && t == ParseClock(FirstTwoWords(target)).value * 60
      && t >= now
    ensures (target != Immediate && ParseClock(FirstTwoWords(target)).Some? &&
             ParseClock(FirstTwoWords(target)).value * 60 >= now) ==>
      t == ParseClock(FirstTwoWords(target)).value * 60
  {
    if target == Immediate then Fallback(now, minutes)
    else
      match ParseClock(FirstTwoWords(target))
      case Some(m) => if m * 60 < now then Fallback(now, minutes) else m * 60
      case None => Fallback(now, minutes)
  }

  /** As written, a label in the clock's own format is honoured only as its
      morning twin: at or after noon every label names a time already
      passed, so the pickup falls back to `minutes` from now. */
  lemma AsWrittenReadsMorningTwin(t: int, now: SecondOfDay, minutes: int)
    ensures ResolvePickup(FormatClock(t), now, minutes)
         == if (MinuteOf(t) % MinutesBeforeNoon) * 60 >= now then (MinuteOf(t) % MinutesBeforeNoon) * 60
            else Fallback(now, minutes)
    ensures now >= MinutesBeforeNoon * 60 ==> ResolvePickup(FormatClock(t), now, minutes) == Fallback(now, minutes)
  {
    var r := FormatClock(t);
    SlotReadsMorningTwin(t);
    assert FirstWord(r) == r[..5] by {
      ClockLabelWords(t);
      FirstWordOfJoin(r[..5], r[6..]);
    }
    assert r != Immediate by {
      assert |r| == 8 != |Immediate|;
    }
  }

  /** As written, a word such as "Break" after a clock label changes
      nothing: only the text before the first space is read. */
  lemma AsWrittenIgnoresTrailingWord(t: int, w: string, now: SecondOfDay, minutes: int)
    ensures ResolvePickup(FormatClock(t) + " " + w, now, minutes) == ResolvePickup(FormatClock(t), now, minutes)
  {
    var r := FormatClock(t);
    ClockLabelWords(t);
    FirstWordOfJoin(r[..5], r[6..]);
    assert r + " " + w == r[..5] + " " + (r[6..] + " " + w);
    FirstWordOfJoin(r[..5], r[6..] + " " + w);
    assert r != Immediate && r + " " + w != Immediate by {
      assert |r| == 8 != |Immediate| && |r + " " + w| >= 9;
      assert |r + " " + w| == 9 ==> (r + " " + w)[8] == ' ' != Immediate[8];
    }
    SameFirstWordSameReading(r, r + " " + w, now, minutes);
  }

  /** As written, two labels other than "Immediate" with the same first
      word resolve alike. */
  lemma SameFirstWordSameReading(a: string, b: string, now: SecondOfDay, minutes: int)
    requires a != Immediate && b != Immediate && FirstWord(a) == FirstWord(b)
    ensures ResolvePickup(a, now, minutes) == ResolvePickup(b, now, minutes)
  {
  }

  lemma MinuteOfWholeMinute(m: MinuteOfDay)
    ensures MinuteOf(m * 60) == m
  {
    assert m * 60 % SecondsPerDay == m * 60;
  }

  /** A formatted clock is two space-free words, "hh:mm" and "AM" or "PM". */
  lemma ClockLabelWords(t: int)
    ensures ' ' !in FormatClock(t)[..5] && ' ' !in FormatClock(t)[6..]
    ensures FormatClock(t) == FormatClock(t)[..5] + " " + FormatClock(t)[6..]
  {
    var r := FormatClock(t);
    assert forall k :: 0 <= k < 5 ==> r[k] != ' ' by {
      DigitsValueShort(r[..2]);
    }
    assert r[..5] + " " + r[6..] == r;
  }

  /** Under the intended reading, a slot labelled with any clock time that
      has not yet passed is honoured to the minute, whether or not a word
      such as "Break" follows the time: the pickup shown to the student is
      the label's own time of day. */
  lemma IntendedHonoursLabel(m: MinuteOfDay, w: string, now: SecondOfDay, minutes: int)
    requires m * 60 >= now
    ensures ResolvePickupIntended(FormatClock(m * 60), now, minutes) == m * 60
    ensures ResolvePickupIntended(FormatClock(m * 60) + " " + w, now, minutes) == m * 60
    ensures ParseClock(FormatClock(ResolvePickupIntended(FormatClock(m * 60) + " " + w, now, minutes))) == Some(m)
  {
    var r := FormatClock(m * 60);
    MinuteOfWholeMinute(m);
    ParseFormatRoundTrip(m * 60);
    ClockLabelWords(m * 60);
    FirstTwoWordsOfJoin(r[..5], r[6..], w);
    assert r + " " + w == r[..5] + " " + r[6..] + " " + w;
    assert r != Immediate && r + " " + w != Immediate by {
      assert |r| == 8 != |Immediate| && |r + " " + w| >= 9;
      assert |r + " " + w| == 9 ==> (r + " " + w)[8] == ' ' != Immediate[8];
    }
  }

  // Concrete readings used by the counterexample below, one small step each.

  lemma OneThirtyFields()
    ensures ParseHour12("1") == Some(1) && ParseMinute("30") == Some(30)
  {
    DigitsValueShort("30");
  }

  /** "1:30 PM" cut at the first and at the second space. */
  lemma OneThirtyWords()
    ensures FirstWord("1:30 PM") == "1:30" && FirstTwoWords("1:30 PM") == "1:30 PM"
  {
    var a, b := "1:30", "PM";
    assert ' ' !in a && ' ' !in b;
    assert a + " " + b == "1:30 PM";
    FirstTwoWordsOfJoin(a, b, "");
    FirstWordOfJoin(a, b);
  }

  lemma OneThirtyAsSlot()
    ensures ParseSlotToken("1:30") == Some(90)
  {
    OneThirtyFields();
    assert "1:30"[..1] == "1" && "1:30"[2..] == "30";
    assert SlotSplit("1:30", 1);
  }

  lemma OneThirtyAsClock()
    ensures ParseClock("1:30 PM") == Some(13 * 60 + 30)
  {
    OneThirtyFields();
    var r := "1:30 PM";
    assert r[..1] == "1" && r[2..4] == "30" && r[5..] == "PM";
    ParseShortTwelveHourShape(r, 1, 30, true);
  }

  lemma TwoDigitLabels()
    ensures Pad2(12) == "12" && Pad2(30) == "30" && Pad2(1) == "01"
  {
    assert DigitChar(0) == '0' && DigitChar(1) == '1' && DigitChar(2) == '2' && DigitChar(3) == '3';
    assert DecimalString(1) == "1" && DecimalString(3) == "3";
  }

  lemma FormatTwelveTwelve()
    ensures FormatClock(43920) == "12:12 PM"
  {
    TwoDigitLabels();
    assert MinuteOf(43920) == 732;
  }

  lemma FormatOneThirty()
    ensures FormatClock(48600) == "01:30 PM"
  {
    TwoDigitLabels();
    assert MinuteOf(48600) == 810;
  }

  /** At noon with a 12-minute wait, the slot "1:30 PM" is read as 01:30,
      which has passed, so the pickup falls back to 12:12 PM; the intended
      reading gives 1:30 PM. */
  lemma AfternoonSlotIgnored()
    ensures ResolvePickup("1:30 PM", 43200, 12) == 43920
    ensures FormatClock(ResolvePickup("1:30 PM", 43200, 12)) == "12:12 PM"
    ensures ResolvePickupIntended("1:30 PM", 43200, 12) == 48600
    ensures FormatClock(ResolvePickupIntended("1:30 PM", 43200, 12)) == "01:30 PM"
  {
    OneThirtyWords();
    OneThirtyAsSlot();
    OneThirtyAsClock();
    FormatTwelveTwelve();
    FormatOneThirty();
  }

  // The slots the order form offers.

  lemma SlotFields()
    ensures ParseHour12("10") == Some(10) && ParseHour12("12") == Some(12) && ParseHour12("3") == Some(3)
    ensures ParseMinute("00") == Some(0) && ParseMinute("30") == Some(30)
  {
    DigitsValueShort("10");
    DigitsValueShort("12");
    DigitsValueShort("00");
    DigitsValueShort("30");
  }

  lemma TenThirtyAsClock()
    ensures ParseClock("10:30 AM") == Some(10 * 60 + 30)
  {
    SlotFields();
    var r := "10:30 AM";
    assert r[..2] == "10" && r[3..5] == "30" && r[6..] == "AM";
    ParseTwelveHourShape(r, 10, 30, false);
  }

  lemma NoonAsClock()
    ensures ParseClock("12:00 PM") == Some(12 * 60)
  {
    SlotFields();
    var r := "12:00 PM";
    assert r[..2] == "12" && r[3..5] == "00" && r[6..] == "PM";
    ParseTwelveHourShape(r, 12, 0, true);
  }

  lemma ThreeAsClock()
    ensures ParseClock("3:00 PM") == Some(15 * 60)
  {
    SlotFields();
    var r := "3:00 PM";
    assert r[..1] == "3" && r[2..4] == "00" && r[5..] == "PM";
    ParseShortTwelveHourShape(r, 3, 0, true);
  }

  /** The form's "12:00 PM" is cut to "12:00", which `%I:%M` reads as
      midnight. */
  lemma NoonSlotAsWritten(slot: string)
    requires slot == OfferedSlots[2]
    ensures ParseSlotToken(FirstWord(slot)) == Some(0)
  {
    var a, b := "12:00", "PM";
    assert ' ' !in a && slot == a + " " + b;
    FirstWordOfJoin(a, b);
    var tok := FirstWord(slot);
    SlotFields();
    assert tok[..2] == "12" && tok[3..] == "00";
    SlotTokenReads(tok, 2, 12, 0, 0);
  }

  /** Each slot the form offers after "Immediate" reads as the clock time
      it names, so the corrected reading keeps it while that time lies
      ahead. */
  lemma OfferedSlotsAsClock()
    ensures ParseClock(OfferedSlots[1]) == Some(10 * 60 + 30)
    ensures ParseClock(OfferedSlots[2]) == Some(12 * 60)
    ensures ParseClock(OfferedSlots[3]) == Some(13 * 60 + 30)
    ensures ParseClock(OfferedSlots[4]) == Some(15 * 60)
  {
    assert OfferedSlots[1] == "10:30 AM" && OfferedSlots[2] == "12:00 PM";
    assert OfferedSlots[3] == "1:30 PM" && OfferedSlots[4] == "3:00 PM";
    TenThirtyAsClock();
    NoonAsClock();
    OneThirtyAsClock();
    ThreeAsClock();
  }

  /** As written, the form's "12:00 PM" is read as midnight, so it falls
      back at every moment after midnight; and from noon on every slot the
      form offers falls back. */
  lemma OfferedSlotsAsWritten(now: SecondOfDay, minutes: int)
    ensures now > 0 ==> ResolvePickup(OfferedSlots[2], now, minutes) == Fallback(now, minutes)
    ensures now >= MinutesBeforeNoon * 60 ==>
      forall i :: 0 <= i < |OfferedSlots| ==> ResolvePickup(OfferedSlots[i], now, minutes) == Fallback(now, minutes)
  {
    NoonSlotAsWritten(OfferedSlots[2]);
    assert OfferedSlots[2] != Immediate by {
      assert |OfferedSlots[2]| != |Immediate|;
    }
  }

  // ---------------------------------------------------------------------
  // The prediction record

  datatype Breakdown = Breakdown(basePrep: int, queueDelay: nat, buffer: int, total: int)

  datatype Prediction = Prediction(
    formattedTime: string,
    isRushHour: bool,
    minutes: int,
    activeOrders: nat,
    breakdown: Breakdown)

  /** The record returned for a vendor with `activeOrders` active orders,
      an item of `prep` minutes and a pickup resolved to `pickup`. */
  function Predict(activeOrders: nat, prep: int, pickup: int): (p: Prediction)
    ensures p.activeOrders == activeOrders && (p.isRushHour <==> activeOrders > 10)
    ensures p.breakdown.basePrep == prep && p.breakdown.buffer == 2
    ensures p.breakdown.total == p.minutes == p.breakdown.basePrep + p.breakdown.queueDelay + p.breakdown.buffer
    ensures !p.isRushHour ==> p.breakdown.queueDelay == 2 * activeOrders
    ensures p.isRushHour ==> p.breakdown.queueDelay == 3 * activeOrders
    ensures ParseClock(p.formattedTime) == Some(MinuteOf(pickup))
  {
    ParseFormatRoundTrip(pickup);
    var minutes := TotalWait(activeOrders, prep);
    Prediction(
      FormatClock(pickup),
      IsRush(activeOrders),
      minutes,
      activeOrders,
      Breakdown(prep, AdjustedQueueDelay(activeOrders), BufferMinutes, minutes))
  }

  /** calculate_wait_time as written: the active-order count comes from the
      store, and the formatted pickup reads back as the minute of day the
      slot resolved to. */
  function CalculateWaitTime(s: Store, vendorId: int, prep: int, target: string, now: SecondOfDay): (p: Prediction)
    ensures p.activeOrders == VendorActiveCount(s, vendorId)
    ensures p.minutes == TotalWait(VendorActiveCount(s, vendorId), prep)
    ensures ParseClock(p.formattedTime) == Some(MinuteOf(ResolvePickup(target, now, p.minutes)))
  {
    var n := VendorActiveCount(s, vendorId);
    Predict(n, prep, ResolvePickup(target, now, TotalWait(n, prep)))
  }

  /** calculate_wait_time with the slot read as the clock time it names. */
  function CalculateWaitTimeIntended(s: Store, vendorId: int, prep: int, target: string, now: SecondOfDay): (p: Prediction)
    ensures p.activeOrders == VendorActiveCount(s, vendorId)
    ensures p.minutes == TotalWait(VendorActiveCount(s, vendorId), prep)
    ensures ParseClock(p.formattedTime) == Some(MinuteOf(ResolvePickupIntended(target, now, p.minutes)))
  {
    var n := VendorActiveCount(s, vendorId);
    Predict(n, prep, ResolvePickupIntended(target, now, TotalWait(n, prep)))
  }

  /** "Immediate" promises the pickup `minutes` after now, to the minute,
      under either reading. */
  lemma ImmediatePickup(s: Store, vendorId: int, prep: int, target: string, now: SecondOfDay)
    requires target == Immediate
    ensures var p := CalculateWaitTime(s, vendorId, prep, target, now);
      ParseClock(p.formattedTime) == Some(MinuteOf(Fallback(now, p.minutes)))
    ensures var p := CalculateWaitTimeIntended(s, vendorId, prep, target, now);
      ParseClock(p.formattedTime) == Some(MinuteOf(Fallback(now, p.minutes)))
  {
  }

  /** With nothing in the vendor's queue and a 10-minute item, the promise
      is 12 minutes, none of it queueing. */
  lemma EmptyQueuePrediction(s: Store, vendorId: int, target: string, now: SecondOfDay)
    requires VendorActiveCount(s, vendorId) == 0
    ensures var p := CalculateWaitTime(s, vendorId, 10, target, now);
      p.minutes == 12 && p.breakdown.queueDelay == 0 && !p.isRushHour
  {
  }

  // ---------------------------------------------------------------------
  // Vendor statistics

  datatype VendorStats = VendorStats(queueLoad: nat, avgWaitMinutes: int, isRushHour: bool)

  /** get_vendor_stats: `int(n * 2 * multiplier + 5)`. */
  function GetVendorStats(s: Store, vendorId: int): (st: VendorStats)
    ensures st.queueLoad == VendorActiveCount(s, vendorId)
    ensures st.isRushHour <==> st.queueLoad > 10
    ensures !st.isRushHour ==> st.avgWaitMinutes == 2 * st.queueLoad + 5
    ensures st.isRushHour ==> st.avgWaitMinutes == 3 * st.queueLoad + 5
  {
    var n := VendorActiveCount(s, vendorId);
    VendorStats(n, AdjustedQueueDelay(n) + StatsBaseMinutes, IsRush(n))
  }

  /** The average wait the vendor sees is the wait a 5-minute item would be
      promised, less the two-minute buffer. */
  lemma StatsMatchPrediction(s: Store, vendorId: int, target: string, now: SecondOfDay)
    ensures GetVendorStats(s, vendorId).avgWaitMinutes
         == CalculateWaitTime(s, vendorId, 5, target, now).minutes - BufferMinutes
    ensures GetVendorStats(s, vendorId).isRushHour == CalculateWaitTime(s, vendorId, 5, target, now).isRushHour
  {
  }
}

=== FILE: store.dfy ===
/** The entity store of `database.py` as an immutable value: users keyed by
    (stripped) roll number, the seeded vendors and menu, and orders keyed by
    their autoincrement id. Every write returns the store it leaves behind;
    the wall clock and the random token suffix are parameters. */
module Store {
  import opened Text

  datatype Status = Received | Cooking | Ready | Collected | Expired

  /** Position along the preparation pipeline; both terminal states come last. */
  function Rank(st: Status): nat {
    match st
    case Received => 0
    case Cooking => 1
    case Ready => 2
    case Collected => 3
    case Expired => 3
  }

  /** `status NOT IN ('Collected', 'Expired')`. */
  predicate IsActive(st: Status) {
    st != Collected && st != Expired
  }

  datatype User = User(roll: string, name: string, pin: string, points: int)

  datatype MenuItem = MenuItem(id: nat, vendorId: int, name: string, price: int, prepTime: int, available: bool)

  datatype Order = Order(
    id: nat,
    token: string,
    userId: string,
    studentName: string,
    vendorId: int,
    itemName: string,
    status: Status,
    orderTime: int,
    predictedPickup: string)

  /** `vendors` maps a vendor id to its display name; `menu` is the menu table
      in row order; `nextId` is the id the next inserted order receives. */
  datatype Store = Store(
    users: map<string, User>,
    vendors: map<int, string>,
    menu: seq<MenuItem>,
    orders: map<nat, Order>,
    nextId: nat)

  const InitialPoints: int := 100
  const NoShowPenalty: int := 10
  const BanThreshold: int := 40
  const DefaultPrepTime: int := 5
  const UnknownStudent: string := "Unknown"
  const TokenPrefix: string := "#VR-"

  /** The range of `random.randint(100, 999)`. */
  type TokenSuffix = n: int | 100 <= n <= 999 witness 100

  predicate KeyedById(orders: map<nat, Order>) {
    forall id :: id in orders ==> orders[id].id == id
  }

  /** What the schema and the write paths keep true: users are filed under
      their own roll number with karma in [0, 100], and orders under their
      own id, all below the next autoincrement value. */
  ghost predicate Valid(s: Store) {
    && (forall r :: r in s.users ==> s.users[r].roll == r && 0 <= s.users[r].points <= InitialPoints)
    && KeyedById(s.orders)
    && (forall id :: id in s.orders ==> id < s.nextId)
  }

  // ---------------------------------------------------------------------
  // Reading the orders table

  predicate UniqueIds(xs: seq<Order>) {
    forall i, j :: 0 <= i < |xs| && 0 <= j < |xs| && xs[i].id == xs[j].id ==> i == j
  }

  lemma UniqueIdsSnoc(xs: seq<Order>, x: Order)
    requires UniqueIds(xs) && forall o :: o in xs ==> o.id != x.id
    ensures UniqueIds(xs + [x])
  {
    var ys := xs + [x];
    forall i, j | 0 <= i < |ys| && 0 <= j < |ys| && ys[i].id == ys[j].id ensures i == j {
      if i < |xs| && j < |xs| {
        assert xs[i].id == xs[j].id;
      }
    }
  }

  lemma UniqueIdsCons(x: Order, xs: seq<Order>)
    requires UniqueIds(xs) && forall o :: o in xs ==> o.id != x.id
    ensures UniqueIds([x] + xs)
  {
    var ys := [x] + xs;
    forall i, j | 0 <= i < |ys| && 0 <= j < |ys| && ys[i].id == ys[j].id ensures i == j {
      if i > 0 && j > 0 {
        assert xs[i - 1].id == xs[j - 1].id;
      }
    }
  }

  /** The rows of the orders table whose id is below `hi`, in id order. */
  function RowsBelow(orders: map<nat, Order>, hi: nat): (r: seq<Order>)
    ensures |r| <= hi
    ensures forall o :: o in r <==> exists id :: id < hi && id in orders && orders[id] == o
  {
    if hi == 0 then []
    else RowsBelow(orders, hi - 1) + (if hi - 1 in orders then [orders[hi - 1]] else [])
  }

  lemma {:induction false} RowsBelowUnique(orders: map<nat, Order>, hi: nat)
    requires KeyedById(orders)
    ensures UniqueIds(RowsBelow(orders, hi)) && forall o :: o in RowsBelow(orders, hi) ==> o.id < hi
  {
    if hi > 0 {
      RowsBelowUnique(orders, hi - 1);
      if hi - 1 in orders {
        UniqueIdsSnoc(RowsBelow(orders, hi - 1), orders[hi - 1]);
      }
    }
  }

  /** The orders table in id (insertion) order. */
  function Rows(s: Store): seq<Order> {
    RowsBelow(s.orders, s.nextId)
  }

  lemma RowsAreOrders(s: Store)
    requires Valid(s)
    ensures forall o :: o in Rows(s) <==> o in s.orders.Values
    ensures UniqueIds(Rows(s))
  {
    RowsBelowUnique(s.orders, s.nextId);
    forall o | o in s.orders.Values ensures o in Rows(s) {
      var id :| id in s.orders && s.orders[id] == o;
    }
  }

  /** The three `WHERE` clauses over orders; every one of them also demands
      `status NOT IN ('Collected', 'Expired')`. */
  datatype RowFilter =
    | QueueOf(vendorId: int)
      // get_vendor_active_orders_count: no join
    | ListedFor(vendorId: int, users: set<string>)
      // get_vendor_orders: inner join on users
    | TrackedFor(userId: string, vendors: set<int>)
      // get_user_active_orders: inner join on vendors

  predicate Keeps(f: RowFilter, o: Order) {
    && IsActive(o.status)
    && match f
       case QueueOf(v) => o.vendorId == v
       case ListedFor(v, users) => o.vendorId == v && o.userId in users
       case TrackedFor(u, vendors) => o.userId == u && o.vendorId in vendors
  }

  /** The rows of `xs` the filter keeps, in their original order. */
  function Select(xs: seq<Order>, f: RowFilter): (r: seq<Order>)
    ensures |r| <= |xs|
    ensures forall o :: o in r <==> o in xs && Keeps(f, o)
  {
    if xs == [] then []
    else
      var x := xs[|xs| - 1];
      Select(xs[..|xs| - 1], f) + (if Keeps(f, x) then [x] else [])
  }

  lemma UniqueIdsPrefix(xs: seq<Order>, n: nat)
    requires UniqueIds(xs) && n <= |xs|
    ensures UniqueIds(xs[..n])
  {
    forall i, j | 0 <= i < n && 0 <= j < n && xs[..n][i].id == xs[..n][j].id ensures i == j {
      assert xs[i] == xs[..n][i] && xs[j] == xs[..n][j];
    }
  }

  lemma {:induction false} SelectUnique(xs: seq<Order>, f: RowFilter)
    requires UniqueIds(xs)
    ensures UniqueIds(Select(xs, f))
  {
    if xs != [] {
      var front := xs[..|xs| - 1];
      var x := xs[|xs| - 1];
      UniqueIdsPrefix(xs, |xs| - 1);
      SelectUnique(front, f);
      if Keeps(f, x) {
        forall o | o in Select(front, f) ensures o.id != x.id {
          var i :| 0 <= i < |front| && front[i] == o;
          assert xs[i] == o;
        }
        UniqueIdsSnoc(Select(front, f), x);
      }
    }
  }

  /** A kept row appears in the selection exactly as often as in the input,
      and a dropped row not at all. */
  lemma {:induction false} SelectMultiplicity(xs: seq<Order>, f: RowFilter, o: Order)
    ensures multiset(Select(xs, f))[o] == if Keeps(f, o) then multiset(xs)[o] else 0
  {
    if xs != [] {
      var front := xs[..|xs| - 1];
      var x := xs[|xs| - 1];
      assert xs == front + [x];
      SelectMultiplicity(front, f, o);
    }
  }

  lemma SelectSnoc(xs: seq<Order>, x: Order, f: RowFilter)
    ensures Select(xs + [x], f) == Select(xs, f) + (if Keeps(f, x) then [x] else [])
  {
    assert (xs + [x])[..|xs|] == xs;
  }

  // ---------------------------------------------------------------------
  // Ordering a listing by order_time

  /** `a` may be listed before `b`: `ORDER BY order_time ASC` when
      `oldestFirst`, `DESC` otherwise. */
  predicate InServiceOrder(a: Order, b: Order, oldestFirst: bool) {
    if oldestFirst then a.orderTime <= b.orderTime else b.orderTime <= a.orderTime
  }

  predicate SortedBy(xs: seq<Order>, oldestFirst: bool) {
    forall i, j :: 0 <= i < j < |xs| ==> InServiceOrder(xs[i], xs[j], oldestFirst)
  }

  function InsertByTime(x: Order, xs: seq<Order>, oldestFirst: bool): (r: seq<Order>)
    ensures multiset(r) == multiset(xs) + multiset{x}
    ensures forall o :: o in r <==> o == x || o in xs
  {
    if xs == [] || InServiceOrder(x, xs[0], oldestFirst) then [x] + xs
    else
      assert xs == [xs[0]] + xs[1..];
      [xs[0]] + InsertByTime(x, xs[1..], oldestFirst)
  }

  lemma {:induction false} InsertSorted(x: Order, xs: seq<Order>, oldestFirst: bool)
    requires SortedBy(xs, oldestFirst)
    ensures SortedBy(InsertByTime(x, xs, oldestFirst), oldestFirst)
  {
    if xs == [] || InServiceOrder(x, xs[0], oldestFirst) {
    } else {
      assert InServiceOrder(xs[0], x, oldestFirst);
      InsertSorted(x, xs[1..], oldestFirst);
      var rest := InsertByTime(x, xs[1..], oldestFirst);
      forall o | o in rest ensures InServiceOrder(xs[0], o, oldestFirst) {
        if o != x {
          var k :| 0 <= k < |xs[1..]| && xs[1..][k] == o;
          assert xs[k + 1] == o;
        }
      }
    }
  }

  /** A stable insertion sort by `order_time`. */
  function SortByTime(xs: seq<Order>, oldestFirst: bool): (r: seq<Order>)
    ensures SortedBy(r, oldestFirst)
    ensures multiset(r) == multiset(xs) && |r| == |xs|
    ensures forall o :: o in r <==> o in xs
  {
    if xs == [] then []
    else
      assert xs == [xs[0]] + xs[1..];
      var rest := SortByTime(xs[1..], oldestFirst);
      InsertSorted(xs[0], rest, oldestFirst);
      InsertByTime(xs[0], rest, oldestFirst)
  }

  lemma {:induction false} InsertUnique(x: Order, xs: seq<Order>, oldestFirst: bool)
    requires UniqueIds(xs) && forall o :: o in xs ==> o.id != x.id
    ensures UniqueIds(InsertByTime(x, xs, oldestFirst))
  {
    if xs == [] || InServiceOrder(x, xs[0], oldestFirst) {
      UniqueIdsCons(x, xs);
    } else {
      UniqueIdsSuffix(xs);
      InsertUnique(x, xs[1..], oldestFirst);
      var rest := InsertByTime(x, xs[1..], oldestFirst);
      forall o | o in rest ensures o.id != xs[0].id {
        if o != x {
          var k :| 0 <= k < |xs[1..]| && xs[1..][k] == o;
          assert xs[k + 1] == o;
        }
      }
      UniqueIdsCons(xs[0], rest);
    }
  }

  lemma UniqueIdsSuffix(xs: seq<Order>)
    requires UniqueIds(xs) && xs != []
    ensures UniqueIds(xs[1..])
    ensures forall o :: o in xs[1..] ==> o.id != xs[0].id
  {
    forall i, j | 0 <= i < |xs[1..]| && 0 <= j < |xs[1..]| && xs[1..][i].id == xs[1..][j].id ensures i == j {
      assert xs[i + 1].id == xs[j + 1].id;
    }
    forall o | o in xs[1..] ensures o.id != xs[0].id {
      var k :| 0 <= k < |xs[1..]| && xs[1..][k] == o;
      assert xs[k + 1] == o;
    }
  }

  lemma {:induction false} SortUnique(xs: seq<Order>, oldestFirst: bool)
    requires UniqueIds(xs)
    ensures UniqueIds(SortByTime(xs, oldestFirst))
  {
    if xs != [] {
      UniqueIdsSuffix(xs);
      SortUnique(xs[1..], oldestFirst);
      InsertUnique(xs[0], SortByTime(xs[1..], oldestFirst), oldestFirst);
    }
  }

  /** A listing built from the table: filtered, then sorted. Under `Valid`
      its rows are exactly the stored orders the filter keeps, each once. */
  lemma ListingFacts(s: Store, f: RowFilter, oldestFirst: bool)
    ensures Valid(s) ==> UniqueIds(SortByTime(Select(Rows(s), f), oldestFirst))
    ensures Valid(s) ==> forall o :: o in SortByTime(Select(Rows(s), f), oldestFirst) <==>
      o in s.orders.Values && Keeps(f, o)
  {
    if Valid(s) {
      RowsAreOrders(s);
      SelectUnique(Rows(s), f);
      SortUnique(Select(Rows(s), f), oldestFirst);
    }
  }

  // ---------------------------------------------------------------------
  // Queries

  /** get_vendor_active_orders_count: active orders of the vendor, whether
      or not their owner is a known user. */
  function VendorActiveCount(s: Store, vendorId: int): (n: nat)
    ensures n <= s.nextId
  {
    |Select(Rows(s), QueueOf(vendorId))|
  }

  /** get_vendor_orders: the vendor's active orders whose owner is a known
      user (the query joins on users), oldest first. */
  function VendorOrders(s: Store, vendorId: int): (r: seq<Order>)
    ensures SortedBy(r, true)
    ensures forall o :: o in r <==> o in Rows(s) && Keeps(ListedFor(vendorId, s.users.Keys), o)
    ensures Valid(s) ==> UniqueIds(r)
    ensures Valid(s) ==> forall o :: o in r <==>
      o in s.orders.Values && IsActive(o.status) && o.vendorId == vendorId && o.userId in s.users
  {
    ListingFacts(s, ListedFor(vendorId, s.users.Keys), true);
    SortByTime(Select(Rows(s), ListedFor(vendorId, s.users.Keys)), true)
  }

  /** get_user_active_orders: the user's active orders at known vendors,
      newest first. The roll number is stripped first. */
  function UserActiveOrders(s: Store, roll: string): (r: seq<Order>)
    ensures SortedBy(r, false)
    ensures forall o :: o in r <==> o in Rows(s) && Keeps(TrackedFor(Strip(roll), s.vendors.Keys), o)
    ensures Valid(s) ==> UniqueIds(r)
    ensures Valid(s) ==> forall o :: o in r <==>
      o in s.orders.Values && IsActive(o.status) && o.userId == Strip(roll) && o.vendorId in s.vendors
  {
    ListingFacts(s, TrackedFor(Strip(roll), s.vendors.Keys), false);
    SortByTime(Select(Rows(s), TrackedFor(Strip(roll), s.vendors.Keys)), false)
  }

  /** check_ban_status: a known user with karma below 40 is banned; an
      unknown roll number is not. */
  function CheckBanStatus(s: Store, roll: string): (banned: bool)
    ensures banned ==> Strip(roll) in s.users
    ensures Strip(roll) in s.users ==> (banned <==> s.users[Strip(roll)].points < BanThreshold)
  {
    var key := Strip(roll);
    key in s.users && s.users[key].points < BanThreshold
  }

  /** get_user_points: an unknown roll number has 0 points. */
  function GetUserPoints(s: Store, roll: string): (p: int)
    ensures Strip(roll) in s.users ==> p == s.users[Strip(roll)].points
    ensures Strip(roll) !in s.users ==> p == 0
  {
    var key := Strip(roll);
    if key in s.users then s.users[key].points else 0
  }

  /** The two lookups agree on known users; an unknown roll number reads as
      0 points and yet is not banned. */
  lemma BanMatchesPoints(s: Store, roll: string)
    ensures Strip(roll) in s.users ==> (CheckBanStatus(s, roll) <==> GetUserPoints(s, roll) < BanThreshold)
    ensures Strip(roll) !in s.users ==> !CheckBanStatus(s, roll) && GetUserPoints(s, roll) == 0
  {
  }

  /** The prep time of the first menu row named `name` (any vendor, available
      or not), or 5 minutes when no row has that name. */
  function FirstPrepTime(menu: seq<MenuItem>, name: string): (t: int)
    ensures forall i ::
      0 <= i < |menu| && menu[i].name == name && (forall j :: 0 <= j < i ==> menu[j].name != name) ==>
        t == menu[i].prepTime
    ensures (forall i :: 0 <= i < |menu| ==> menu[i].name != name) ==> t == DefaultPrepTime
  {
    if menu == [] then DefaultPrepTime
    else if menu[0].name == name then menu[0].prepTime
    else
      var t := FirstPrepTime(menu[1..], name);
      FirstPrepTimeStep(menu, name, t);
      t
  }

  /** What the lookup promises of the tail, it promises of the whole menu
      when the head has another name. */
  lemma FirstPrepTimeStep(menu: seq<MenuItem>, name: string, t: int)
    requires menu != [] && menu[0].name != name
    requires forall i ::
      0 <= i < |menu[1..]| && menu[1..][i].name == name && (forall j :: 0 <= j < i ==> menu[1..][j].name != name) ==>
        t == menu[1..][i].prepTime
    requires (forall i :: 0 <= i < |menu[1..]| ==> menu[1..][i].name != name) ==> t == DefaultPrepTime
    ensures forall i ::
      0 <= i < |menu| && menu[i].name == name && (forall j :: 0 <= j < i ==> menu[j].name != name) ==>
        t == menu[i].prepTime
    ensures (forall i :: 0 <= i < |menu| ==> menu[i].name != name) ==> t == DefaultPrepTime
  {
    var tail := menu[1..];
    forall i | 0 <= i < |menu| && menu[i].name == name && (forall j :: 0 <= j < i ==> menu[j].name != name)
      ensures t == menu[i].prepTime
    {
      assert tail[i - 1] == menu[i];
      forall j | 0 <= j < i - 1 ensures tail[j].name != name {
        assert tail[j] == menu[j + 1];
      }
    }
    if forall i :: 0 <= i < |menu| ==> menu[i].name != name {
      forall i | 0 <= i < |tail| ensures tail[i].name != name {
        assert tail[i] == menu[i + 1];
      }
    }
  }

  /** get_item_prep_time_by_name. */
  function GetItemPrepTimeByName(s: Store, name: string): (t: int)
    ensures (exists i :: 0 <= i < |s.menu| && s.menu[i].name == name && s.menu[i].prepTime == t)
         || ((forall i :: 0 <= i < |s.menu| ==> s.menu[i].name != name) && t == DefaultPrepTime)
  {
    FirstPrepTimeFound(s.menu, name);
    FirstPrepTime(s.menu, name)
  }

  lemma FirstPrepTimeFound(menu: seq<MenuItem>, name: string)
    ensures (exists i :: 0 <= i < |menu| && menu[i].name == name) ==>
      exists i :: 0 <= i < |menu| && menu[i].name == name && menu[i].prepTime == FirstPrepTime(menu, name)
  {
    if exists i :: 0 <= i < |menu| && menu[i].name == name {
      var i := FirstIndexNamed(menu, name);
    }
  }

  /** The least index of a menu row called `name`. */
  ghost function FirstIndexNamed(menu: seq<MenuItem>, name: string): (i: nat)
    requires exists i :: 0 <= i < |menu| && menu[i].name == name
    ensures i < |menu| && menu[i].name == name && forall j :: 0 <= j < i ==> menu[j].name != name
  {
    if menu[0].name == name then 0
    else
      assert exists i :: 0 <= i < |menu[1..]| && menu[1..][i].name == name by {
        var k :| 0 <= k < |menu| && menu[k].name == name;
        assert menu[1..][k - 1] == menu[k];
      }
      var k := FirstIndexNamed(menu[1..], name);
      assert menu[k + 1] == menu[1..][k];
      k + 1
  }

  // ---------------------------------------------------------------------
  // Writes

  /** `MAX(0, points - amount)`. */
  function FloorAtZero(p: int, amount: int): (q: int)
    ensures q >= 0 && q >= p - amount
    ensures q == p - amount || q == 0
    ensures p >= 0 && amount >= 0 ==> q <= p
  {
    if p - amount > 0 then p - amount else 0
  }

  /** `f"#VR-{suffix}"`. */
  function MakeToken(suffix: TokenSuffix): (t: string)
    ensures |t| == 7 && t[..4] == TokenPrefix
    ensures AllDigits(t[4..]) && DigitsValue(t[4..]) == suffix
  {
    var digits := DecimalString(suffix);
    assert (TokenPrefix + digits)[4..] == digits;
    TokenPrefix + digits
  }

  /** Two tokens are equal only when their random suffixes are. */
  lemma TokenDeterminesSuffix(a: TokenSuffix, b: TokenSuffix)
    ensures MakeToken(a) == MakeToken(b) <==> a == b
  {
    if MakeToken(a) == MakeToken(b) {
      assert MakeToken(a)[4..] == MakeToken(b)[4..];
    }
  }

  /** Filing a user under its own roll number with karma in [0, 100] keeps the store valid. */
  lemma ValidWithUser(s: Store, u: User)
    ensures Valid(s) && 0 <= u.points <= InitialPoints ==> Valid(s.(users := s.users[u.roll := u]))
  {
  }

  /** register_user: insert the stripped roll and name with 100 points, or
      report `false` and change nothing when the roll number is taken. */
  function RegisterUser(s: Store, roll: string, name: string, pin: string): (r: (Store, bool))
    ensures r.1 <==> Strip(roll) !in s.users
    ensures !r.1 ==> r.0 == s
    ensures r.1 ==> r.0.orders == s.orders && r.0.nextId == s.nextId && r.0.menu == s.menu && r.0.vendors == s.vendors
    ensures r.1 ==> r.0.users == s.users[Strip(roll) := User(Strip(roll), Strip(name), pin, InitialPoints)]
    ensures Valid(s) ==> Valid(r.0)
  {
    var key := Strip(roll);
    if key in s.users then (s, false)
    else
      var u := User(key, Strip(name), pin, InitialPoints);
      ValidWithUser(s, u);
      (s.(users := s.users[key := u]), true)
  }

  /** add_order: insert one order under the next id with status `Received`,
      the owner's current name (or "Unknown"), the clock reading `now` as its
      order time and the prediction string unchanged; return its token. */
  function AddOrder(s: Store, userId: string, vendorId: int, itemName: string, prediction: string,
                    suffix: TokenSuffix, now: int): (r: (Store, string))
    ensures |r.1| == 7 && r.1[..4] == TokenPrefix && AllDigits(r.1[4..]) && DigitsValue(r.1[4..]) == suffix
    ensures r.0.users == s.users && r.0.vendors == s.vendors && r.0.menu == s.menu
    ensures r.0.nextId == s.nextId + 1
    ensures r.0.orders.Keys == s.orders.Keys + {s.nextId}
    ensures forall id :: id in s.orders && id != s.nextId ==> r.0.orders[id] == s.orders[id]
    ensures var o := r.0.orders[s.nextId];
      && o.id == s.nextId && o.token == r.1 && o.status == Received
      && o.predictedPickup == prediction && o.userId == Strip(userId)
      && o.vendorId == vendorId && o.itemName == itemName && o.orderTime == now
      && o.studentName == (if Strip(userId) in s.users then s.users[Strip(userId)].name else UnknownStudent)
    ensures Valid(s) ==> Valid(r.0)
  {
    var token := MakeToken(suffix);
    var key := Strip(userId);
    var name := if key in s.users then s.users[key].name else UnknownStudent;
    var o := Order(s.nextId, token, key, name, vendorId, itemName, Received, now, prediction);
    (s.(orders := s.orders[s.nextId := o], nextId := s.nextId + 1), token)
  }

  /** update_status: overwrite one order's status, whatever it was; no
      legality check and no karma change. An unknown id changes nothing. */
  function UpdateStatus(s: Store, orderId: nat, status: Status): (r: Store)
    ensures r.users == s.users && r.vendors == s.vendors && r.menu == s.menu && r.nextId == s.nextId
    ensures r.orders.Keys == s.orders.Keys
    ensures forall id :: id in s.orders && id != orderId ==> r.orders[id] == s.orders[id]
    ensures orderId in s.orders ==> r.orders[orderId] == s.orders[orderId].(status := status)
    ensures Valid(s) ==> Valid(r)
  {
    if orderId in s.orders then s.(orders := s.orders[orderId := s.orders[orderId].(status := status)])
    else s
  }

  /** What expire_order_with_penalty reports. `OwnerMissing` is the case
      where the final points lookup finds no row and raises, after both
      updates have been committed. */
  datatype ExpireResult =
    | Penalised(userId: string, points: int)
    | NoSuchOrder
    | OwnerMissing(userId: string)

  /** expire_order_with_penalty: mark the order `Expired` and take 10 karma
      points from its owner, floored at 0; report the owner and the new total. */
  function ExpireOrderWithPenalty(s: Store, orderId: nat): (r: (Store, ExpireResult))
    ensures orderId !in s.orders <==> r.1 == NoSuchOrder
    ensures orderId !in s.orders ==> r.0 == s
    ensures orderId in s.orders ==>
      && r.0.orders == s.orders[orderId := s.orders[orderId].(status := Expired)]
      && r.0.vendors == s.vendors && r.0.menu == s.menu && r.0.nextId == s.nextId
    ensures orderId in s.orders && s.orders[orderId].userId in s.users ==>
      var owner := s.orders[orderId].userId;
      var before := s.users[owner].points;
      && owner in r.0.users
      && r.1 == Penalised(owner, r.0.users[owner].points)
      && r.0.users == s.users[owner := s.users[owner].(points := r.0.users[owner].points)]
      && r.0.users[owner].points >= 0
      && (before >= NoShowPenalty ==> r.0.users[owner].points == before - NoShowPenalty)
      && (before < NoShowPenalty ==> r.0.users[owner].points == 0)
    ensures orderId in s.orders && s.orders[orderId].userId !in s.users ==>
      r.1 == OwnerMissing(s.orders[orderId].userId) && r.0.users == s.users
    ensures Valid(s) ==> Valid(r.0)
  {
    if orderId !in s.orders then (s, NoSuchOrder)
    else
      var o := s.orders[orderId];
      var orders := s.orders[orderId := o.(status := Expired)];
      if o.userId in s.users then
        var u := s.users[o.userId];
        var pts := FloorAtZero(u.points, NoShowPenalty);
        (s.(orders := orders, users := s.users[o.userId := u.(points := pts)]), Penalised(o.userId, pts))
      else
        (s.(orders := orders), OwnerMissing(o.userId))
  }

  /** deduct_points: `points = MAX(0, points - amount)` for the stripped roll
      number; an unknown roll number changes nothing. */
  function DeductPoints(s: Store, roll: string, amount: int): (r: Store)
    ensures r.orders == s.orders && r.vendors == s.vendors && r.menu == s.menu && r.nextId == s.nextId
    ensures r.users.Keys == s.users.Keys
    ensures forall k :: k in s.users && k != Strip(roll) ==> r.users[k] == s.users[k]
    ensures Strip(roll) in s.users ==>
      var u := s.users[Strip(roll)];
      r.users[Strip(roll)] == u.(points := r.users[Strip(roll)].points)
      && r.users[Strip(roll)].points >= 0
      && (u.points - amount >= 0 ==> r.users[Strip(roll)].points == u.points - amount)
      && (u.points - amount < 0 ==> r.users[Strip(roll)].points == 0)
    ensures Valid(s) && amount >= 0 ==> Valid(r)
  {
    var key := Strip(roll);
    if key in s.users then
      var pts := FloorAtZero(s.users[key].points, amount);
      PointsUpdateKeepsValid(s, key, pts);
      s.(users := s.users[key := s.users[key].(points := pts)])
    else s
  }

  /** Lowering one user's points to a value that is still not negative
      keeps the store valid. */
  lemma PointsUpdateKeepsValid(s: Store, key: string, pts: int)
    requires key in s.users && pts >= 0
    ensures Valid(s) && pts <= s.users[key].points ==> Valid(s.(users := s.users[key := s.users[key].(points := pts)]))
  {
    if Valid(s) && pts <= s.users[key].points {
      var users := s.users[key := s.users[key].(points := pts)];
      forall r | r in users ensures users[r].roll == r && 0 <= users[r].points <= InitialPoints {
        if r != key {
          assert users[r] == s.users[r];
        }
      }
    }
  }
}

=== FILE: text.dfy ===
/** Character classes, decimal digits and whitespace stripping: the pieces of
    Python's `str.strip`, `str.split(" ")`, `int(...)` and the `\s`/`\d`
    classes of `strptime` that the canteen core relies on. */
module Text {

  datatype Option<+T> = None | Some(value: T)

  /** Python's `str.isspace`, which is also what `str.strip()` removes and
      what the regex class `\s` matches in a str pattern. */
  predicate IsSpace(c: char) {
    var k := c as int;
    || (9 <= k <= 13) || (28 <= k <= 32) || k == 0x85 || k == 0xA0
    || k == 0x1680 || (0x2000 <= k <= 0x200A) || k == 0x2028 || k == 0x2029
    || k == 0x202F || k == 0x205F || k == 0x3000
  }

  predicate IsDigit(c: char) {
    '0' <= c <= '9'
  }

  predicate AllDigits(s: string) {
    forall k :: 0 <= k < |s| ==> IsDigit(s[k])
  }

  function DigitChar(d: nat): (c: char)
    requires d < 10
    ensures IsDigit(c) && c as int - '0' as int == d
  {
    ('0' as int + d) as char
  }

  /** The value of a string of decimal digits, most significant first. */
  function DigitsValue(s: string): nat
    requires AllDigits(s)
  {
    if s == [] then 0 else DigitsValue(s[..|s| - 1]) * 10 + (s[|s| - 1] as int - '0' as int)
  }

  lemma DigitsValueSnoc(s: string, c: char)
    requires AllDigits(s) && IsDigit(c)
    ensures AllDigits(s + [c])
    ensures DigitsValue(s + [c]) == DigitsValue(s) * 10 + (c as int - '0' as int)
  {
    assert (s + [c])[..|s|] == s;
  }

  lemma DigitsValueShort(s: string)
    ensures AllDigits(s) && |s| == 1 ==> DigitsValue(s) == s[0] as int - '0' as int
    ensures AllDigits(s) && |s| == 2 ==>
      DigitsValue(s) == (s[0] as int - '0' as int) * 10 + (s[1] as int - '0' as int)
  {
    if AllDigits(s) && 1 <= |s| <= 2 {
      assert s[..|s| - 1][..0] == [];
    }
  }

  /** Python's `str(n)` for a non-negative integer. */
  function DecimalString(n: nat): (r: string)
    ensures 1 <= |r| && AllDigits(r) && DigitsValue(r) == n
    ensures |r| == 1 || r[0] != '0'
    ensures n < 10 ==> |r| == 1
    ensures 10 <= n < 100 ==> |r| == 2
    ensures 100 <= n < 1000 ==> |r| == 3
  {
    if n < 10 then
      var r := [DigitChar(n)];
      assert r[..0] == [];
      r
    else
      var p := DecimalString(n / 10);
      DigitsValueSnoc(p, DigitChar(n % 10));
      p + [DigitChar(n % 10)]
  }

  /** `%02d`: a number below 100 written with exactly two digits. */
  function Pad2(n: nat): (r: string)
    requires n < 100
    ensures |r| == 2 && AllDigits(r) && DigitsValue(r) == n
  {
    if n < 10 then
      DigitsValueSnoc("0", DigitChar(n));
      "0" + [DigitChar(n)]
    else DecimalString(n)
  }

  /** Position of the first occurrence of `c` in `s`, if any. */
  function IndexOf(s: string, c: char): (r: Option<nat>)
    ensures r.Some? ==> r.value < |s| && s[r.value] == c && c !in s[..r.value]
    ensures r.None? <==> c !in s
  {
    if s == [] then None
    else if s[0] == c then Some(0)
    else
      match IndexOf(s[1..], c)
      case None => None
      case Some(i) =>
        assert s[..i + 1] == [s[0]] + s[1..][..i];
        Some(i + 1)
  }

  /** `s.split(" ")[0]`: everything before the first space character. */
  function FirstWord(s: string): (r: string)
    ensures r <= s && ' ' !in r
    ensures |r| < |s| ==> s[|r|] == ' '
  {
    match IndexOf(s, ' ')
    case None => s
    case Some(i) => s[..i]
  }

  /** The first word of `a + " " + rest` is `a` when `a` has no space. */
  lemma FirstWordOfJoin(a: string, rest: string)
    requires ' ' !in a
    ensures FirstWord(a + " " + rest) == a
  {
    var s := a + " " + rest;
    assert s[..|a|] == a && s[|a|] == ' ';
  }

  /** `" ".join(s.split(" ")[:2])`: everything before the second space
      character, or all of `s` when it has fewer than two. */
  function FirstTwoWords(s: string): (r: string)
    ensures FirstWord(s) <= r <= s
    ensures |FirstWord(s)| < |s| ==> |FirstWord(s)| < |r| && r[|FirstWord(s)|] == ' '
    ensures forall k :: 0 <= k < |r| && r[k] == ' ' ==> k == |FirstWord(s)|
    ensures |r| < |s| ==> s[|r|] == ' '
  {
    var w := FirstWord(s);
    if |w| == |s| then
      assert w == s;
      s
    else
      var v := FirstWord(s[|w| + 1..]);
      SecondWordSlice(s, w, v);
      w + " " + v
  }

  /** The first word, its space and the first word of what follows are a
      prefix of `s`, which either ends `s` or stops at a space. */
  lemma SecondWordSlice(s: string, w: string, v: string)
    requires w <= s && |w| < |s| && s[|w|] == ' ' && v == FirstWord(s[|w| + 1..])
    ensures w + " " + v == s[..|w| + 1 + |v|]
    ensures |w| + 1 + |v| < |s| ==> s[|w| + 1 + |v|] == ' '
  {
    var rest := s[|w| + 1..];
    assert s == w + " " + rest;
    assert rest[..|v|] == v;
  }

  /** Two space-free words, with or without anything after a further
      space, keep exactly those two words. */
  lemma FirstTwoWordsOfJoin(a: string, b: string, rest: string)
    requires ' ' !in a && ' ' !in b
    ensures FirstTwoWords(a + " " + b) == a + " " + b
    ensures FirstTwoWords(a + " " + b + " " + rest) == a + " " + b
  {
    FirstWordOfJoin(a, b);
    assert (a + " " + b)[|a| + 1..] == b;
    assert FirstWord(b) == b by {
      assert IndexOf(b, ' ').None?;
    }
    var s := a + " " + b + " " + rest;
    assert s == a + " " + (b + " " + rest);
    FirstWordOfJoin(a, b + " " + rest);
    assert s[|a| + 1..] == b + " " + rest;
    FirstWordOfJoin(b, rest);
  }

  /** Length of the longest prefix of `s` made only of digits. */
  function DigitRun(s: string): (n: nat)
    ensures n <= |s| && AllDigits(s[..n])
    ensures n < |s| ==> !IsDigit(s[n])
  {
    if s == [] || !IsDigit(s[0]) then 0
    else
      var m := DigitRun(s[1..]);
      assert s[..m + 1] == [s[0]] + s[1..][..m];
      m + 1
  }

  /** Length of the longest prefix of `s` made only of whitespace. */
  function SpaceRun(s: string): (n: nat)
    ensures n <= |s| && forall k :: 0 <= k < n ==> IsSpace(s[k])
    ensures n < |s| ==> !IsSpace(s[n])
  {
    if s == [] || !IsSpace(s[0]) then 0
    else
      var m := SpaceRun(s[1..]);
      m + 1
  }

  function StripLeft(s: string): (r: string)
    ensures |r| <= |s| && r == s[|s| - |r|..]
    ensures forall k :: 0 <= k < |s| - |r| ==> IsSpace(s[k])
    ensures r == [] || !IsSpace(r[0])
  {
    if s != [] && IsSpace(s[0]) then StripLeft(s[1..]) else s
  }

  function StripRight(s: string): (r: string)
    ensures |r| <= |s| && r == s[..|r|]
    ensures forall k :: |r| <= k < |s| ==> IsSpace(s[k])
    ensures r == [] || !IsSpace(r[|r| - 1])
  {
    if s != [] && IsSpace(s[|s| - 1]) then StripRight(s[..|s| - 1]) else s
  }

  /** Stripping the left end removes exactly the leading whitespace run. */
  lemma {:induction false} StripLeftSkipsRun(s: string)
    ensures |s| - |StripLeft(s)| == SpaceRun(s)
  {
    if s != [] && IsSpace(s[0]) {
      StripLeftSkipsRun(s[1..]);
    }
  }

  /** Python's `str.strip()`: drop leading and trailing whitespace. */
  function Strip(s: string): (r: string)
    ensures |r| <= |s|
    ensures r == [] || (!IsSpace(r[0]) && !IsSpace(r[|r| - 1]))
    ensures r == [] <==> forall k :: 0 <= k < |s| ==> IsSpace(s[k])
    ensures s == [] || (!IsSpace(s[0]) && !IsSpace(s[|s| - 1])) ==> r == s
    ensures WithinMargins(s, r, SpaceRun(s))
  {
    var l := StripLeft(s);
    var r := StripRight(l);
    StripLeftSkipsRun(s);
    MarginsOfStrip(s, l, r);
    r
  }

  /** Trimming a whitespace prefix and then a whitespace suffix leaves a
      slice with whitespace on both sides. */
  lemma MarginsOfStrip(s: string, l: string, r: string)
    requires |l| <= |s| && l == s[|s| - |l|..] && forall k :: 0 <= k < |s| - |l| ==> IsSpace(s[k])
    requires |r| <= |l| && r == l[..|r|] && forall k :: |r| <= k < |l| ==> IsSpace(l[k])
    ensures WithinMargins(s, r, |s| - |l|)
  {
    var i := |s| - |l|;
    assert r == s[i..i + |r|];
    forall k | i + |r| <= k < |s| ensures IsSpace(s[k]) {
      assert s[k] == l[k - i];
    }
  }

  /** `r` is the slice of `s` starting at `i`, and everything of `s` before
      and after that slice is whitespace. */
  predicate WithinMargins(s: string, r: string, i: int) {
    && 0 <= i <= |s| - |r| && r == s[i..i + |r|]
    && (forall k :: 0 <= k < i ==> IsSpace(s[k]))
    && (forall k :: i + |r| <= k < |s| ==> IsSpace(s[k]))
  }

  /** Stripping twice is stripping once. */
  lemma StripIdempotent(s: string)
    ensures Strip(Strip(s)) == Strip(s)
  {
  }
}

=== FILE: views.dfy ===
/** The read-time rules of `app.py`: what a vendor's order row shows and
    offers, the student's tracking loop with its one-shot "Ready" toast,
    the progress and karma mappings, and the sign-up and sign-in gates.
    `now` is the clock reading in seconds from a midnight, on the same
    scale as stored order times. */
module Views {
  import opened Text
  import opened Clock
  import opened Store

  /** A pickup less than this many minutes away marks the row urgent. */
  const UrgentWindowMinutes: int := 5
  /** A `Ready` order older than this many seconds is a ghost. */
  const GhostAfterSeconds: int := 20 * 60
  /** Slack, in minutes, on top of the prep time before "Start NOW". */
  const PrepSlackMinutes: int := 2
  const PinLength: nat := 4

  // ---------------------------------------------------------------------
  // The vendor's order row

  /** The clock reading as the vendor view sees it: `now` written with
      `%I:%M %p` and read back, which keeps the minute of day and drops the
      seconds. */
  function NowOnClock(now: int): (m: MinuteOfDay)
    ensures m == MinuteOf(now)
  {
    ParseFormatRoundTrip(now);
    ParseClock(FormatClock(now)).value
  }

  datatype RowFlags = RowFlags(isUrgent: bool, isGhost: bool)

  /** The urgent and ghost flags of a row. Both pickup and clock are read as
      times on one dummy date, so the minute difference never wraps past
      midnight. A pickup that does not parse leaves both flags unset; an
      order time that does not parse (`None`) leaves only `ghost` unset. */
  function Flags(pickup: string, status: Status, orderTime: Option<int>, now: int): (f: RowFlags)
    ensures f.isUrgent <==> ParseClock(pickup).Some? && 0 < ParseClock(pickup).value - MinuteOf(now) < UrgentWindowMinutes
    ensures f.isGhost <==>
      ParseClock(pickup).Some? && orderTime.Some? && status == Ready && now - orderTime.value > GhostAfterSeconds
  {
    match ParseClock(pickup)
    case None => RowFlags(false, false)
    case Some(pt) =>
      var df := pt - NowOnClock(now);
      var urgent := 0 < df < UrgentWindowMinutes;
      match orderTime
      case None => RowFlags(urgent, false)
      case Some(ot) => RowFlags(urgent, status == Ready && now - ot > GhostAfterSeconds)
  }

  /** The flags of a stored order: its order time is always readable. */
  function OrderFlags(o: Order, now: int): (f: RowFlags)
    ensures f.isUrgent <==>
      ParseClock(o.predictedPickup).Some? && 0 < ParseClock(o.predictedPickup).value - MinuteOf(now) < UrgentWindowMinutes
    ensures f.isGhost <==>
      ParseClock(o.predictedPickup).Some? && o.status == Ready && now - o.orderTime > GhostAfterSeconds
  {
    Flags(o.predictedPickup, o.status, Some(o.orderTime), now)
  }

  /** An order whose stored pickup was formatted from instant `t` is urgent
      exactly when `t`'s minute of day is one to four minutes after the
      clock's, and a ghost exactly when it is `Ready` and over twenty
      minutes old. */
  lemma StoredPredictionFlags(o: Order, t: int, now: int)
    requires o.predictedPickup == FormatClock(t)
    ensures OrderFlags(o, now).isUrgent <==> 0 < MinuteOf(t) - MinuteOf(now) < UrgentWindowMinutes
    ensures OrderFlags(o, now).isGhost <==> o.status == Ready && now - o.orderTime > GhostAfterSeconds
  {
    ParseFormatRoundTrip(t);
  }

  /** A pickup just after midnight is not urgent a minute before midnight:
      the two clock readings are compared without wrap-around. */
  lemma NoMidnightWrap(o: Order, now: int)
    requires o.predictedPickup == FormatClock(60) && MinuteOf(now) == MinutesPerDay - 1
    ensures !OrderFlags(o, now).isUrgent
  {
    StoredPredictionFlags(o, 60, now);
  }

  datatype RowStyle = UrgentRow | GhostRow | PlainRow

  /** Urgent wins over ghost. */
  function StyleOf(f: RowFlags): (st: RowStyle)
    ensures st == UrgentRow <==> f.isUrgent
    ensures st == GhostRow <==> !f.isUrgent && f.isGhost
  {
    if f.isUrgent then UrgentRow else if f.isGhost then GhostRow else PlainRow
  }

  /** A row is styled as a ghost only for a `Ready` order that is not also
      urgent, and a row whose pickup does not parse is always plain. */
  lemma GhostStyleOnlyWhenReady(o: Order, now: int)
    ensures StyleOf(OrderFlags(o, now)) == GhostRow ==> o.status == Ready && !OrderFlags(o, now).isUrgent
    ensures ParseClock(o.predictedPickup).None? ==> StyleOf(OrderFlags(o, now)) == PlainRow
  {
  }

  datatype PrepCue = StartNow | StartIn(minutes: nat) | ItemLabel(name: string)

  /** The cue for an order in `status` with `remaining` minutes to its
      pickup and an item taking `prep` minutes. */
  function Cue(status: Status, remaining: int, prep: int): (c: PrepCue)
    ensures !c.ItemLabel?
    ensures CueMeans(c, status, remaining, prep)
  {
    if remaining <= prep + PrepSlackMinutes && status == Received then StartNow
    else StartIn(if remaining - prep > 0 then remaining - prep else 0)
  }

  /** The cue given the pickup minute as read (if it reads), the minute of
      the day now and the item's prep time. */
  function CueFor(pickup: Option<int>, status: Status, itemName: string, prep: int, nowMinute: int): (c: PrepCue)
    ensures pickup.None? <==> c == ItemLabel(itemName)
    ensures pickup.Some? ==> c == Cue(status, pickup.value - nowMinute, prep)
  {
    match pickup
    case None => ItemLabel(itemName)
    case Some(pt) => Cue(status, pt - nowMinute, prep)
  }

  /** The "Proactive Prep" cell: minutes left until the pickup, against the
      item's prep time as looked up by name; the item name when the pickup
      does not parse. */
  function PrepCueOf(s: Store, o: Order, now: int): (c: PrepCue)
    ensures ParseClock(o.predictedPickup).None? <==> c == ItemLabel(o.itemName)
    ensures c == StartNow ==> o.status == Received
    ensures ParseClock(o.predictedPickup).Some? ==>
      CueMeans(c, o.status, ParseClock(o.predictedPickup).value - MinuteOf(now), GetItemPrepTimeByName(s, o.itemName))
  {
    CueFor(ParseClock(o.predictedPickup), o.status, o.itemName, GetItemPrepTimeByName(s, o.itemName), NowOnClock(now))
  }

  /** What a cue says about the minutes left and the prep time: "Start NOW"
      exactly when a received order has no more than the prep time plus the
      slack left, otherwise the minutes to spare before starting. */
  predicate CueMeans(c: PrepCue, status: Status, remaining: int, prep: int) {
    && (c == StartNow <==> status == Received && remaining <= prep + PrepSlackMinutes)
    && (c.StartIn? ==> c.minutes == if remaining > prep then remaining - prep else 0)
    && (c.StartIn? && status == Received ==> c.minutes > PrepSlackMinutes)
  }

  /** Less time left never turns "Start NOW" back into a wait, and never
      shows more minutes to wait. */
  lemma CueCountsDown(pickup: Option<int>, status: Status, itemName: string, prep: int, now1: int, now2: int)
    requires status == Received && now1 <= now2
    ensures CueFor(pickup, status, itemName, prep, now1) == StartNow ==>
      CueFor(pickup, status, itemName, prep, now2) == StartNow
    ensures CueFor(pickup, status, itemName, prep, now1).StartIn? && CueFor(pickup, status, itemName, prep, now2).StartIn? ==>
      CueFor(pickup, status, itemName, prep, now2).minutes <= CueFor(pickup, status, itemName, prep, now1).minutes
  {
  }

  /** As the clock moves on within the day, a received order's cue only
      counts down: once "Start NOW" it stays so, and the minutes shown never
      grow. */
  lemma PrepCueCountsDown(s: Store, o: Order, now1: int, now2: int)
    requires o.status == Received && MinuteOf(now1) <= MinuteOf(now2)
    ensures PrepCueOf(s, o, now1) == StartNow ==> PrepCueOf(s, o, now2) == StartNow
    ensures PrepCueOf(s, o, now1).StartIn? && PrepCueOf(s, o, now2).StartIn? ==>
      PrepCueOf(s, o, now2).minutes <= PrepCueOf(s, o, now1).minutes
  {
    CueCountsDown(ParseClock(o.predictedPickup), o.status, o.itemName, GetItemPrepTimeByName(s, o.itemName),
      NowOnClock(now1), NowOnClock(now2));
  }

  datatype VendorAction = Advance(to: Status) | MarkNoShow

  /** The buttons on a row: the one forward step its status allows, and the
      no-show button on every row. */
  function OfferedActions(st: Status): (acts: seq<VendorAction>)
    ensures MarkNoShow in acts
    ensures forall a :: a in acts && a.Advance? ==> IsActive(st) && Rank(a.to) == Rank(st) + 1 && a.to != Expired
    ensures IsActive(st) ==> |acts| == 2 && acts[0].Advance?
    ensures !IsActive(st) ==> acts == [MarkNoShow]
  {
    match st
    case Received => [Advance(Cooking), MarkNoShow]
    case Cooking => [Advance(Ready), MarkNoShow]
    case Ready => [Advance(Collected), MarkNoShow]
    case Collected => [MarkNoShow]
    case Expired => [MarkNoShow]
  }

  /** What pressing a button writes to the store: only the pressed order
      changes, to the button's status, and only a no-show touches a user,
      the order's owner. */
  function Perform(s: Store, orderId: nat, a: VendorAction): (r: Store)
    ensures r.vendors == s.vendors && r.menu == s.menu && r.nextId == s.nextId
    ensures r.orders.Keys == s.orders.Keys
    ensures forall id :: id in s.orders && id != orderId ==> r.orders[id] == s.orders[id]
    ensures orderId in s.orders ==>
      r.orders[orderId] == s.orders[orderId].(status := if a.Advance? then a.to else Expired)
    ensures forall u :: u in s.users && (a.Advance? || orderId !in s.orders || u != s.orders[orderId].userId) ==>
      u in r.users && r.users[u] == s.users[u]
    ensures r.users.Keys == s.users.Keys
    ensures Valid(s) ==> Valid(r)
  {
    match a
    case Advance(to) => UpdateStatus(s, orderId, to)
    case MarkNoShow => ExpireOrderWithPenalty(s, orderId).0
  }

  /** Every button on a listed row moves its order strictly forward along
      the pipeline: the view never sends a status backwards. */
  lemma ActionsMoveForward(s: Store, v: int, o: Order, a: VendorAction)
    requires Valid(s) && o in VendorOrders(s, v) && a in OfferedActions(o.status)
    ensures o.id in Perform(s, o.id, a).orders
    ensures Rank(Perform(s, o.id, a).orders[o.id].status) > Rank(o.status)
  {
    assert o in s.orders.Values;
  }

  // ---------------------------------------------------------------------
  // The student's tracking loop

  /** The toast rule for one row: seen before, status changed, now `Ready`. */
  predicate Notifies(seen: map<nat, Status>, o: Order) {
    o.id in seen && seen[o.id] != o.status && o.status == Ready
  }

  datatype Tracking = Tracking(seen: map<nat, Status>, toasts: seq<nat>)

  /** One pass of the tracking loop over the listed rows, in order: toast
      by the rule, then record the row's status as last seen. */
  function Track(seen: map<nat, Status>, rows: seq<Order>): (r: Tracking)
    ensures r.seen.Keys == seen.Keys + set o | o in rows :: o.id
    ensures forall id :: id in r.toasts ==> exists o :: o in rows && o.id == id && o.status == Ready
  {
    if rows == [] then Tracking(seen, [])
    else
      var front := Track(seen, rows[..|rows| - 1]);
      var o := rows[|rows| - 1];
      assert rows == rows[..|rows| - 1] + [o];
      var toasts := front.toasts + (if Notifies(front.seen, o) then [o.id] else []);
      TrackStep(seen, rows[..|rows| - 1], o, rows, front, toasts);
      Tracking(front.seen[o.id := o.status], toasts)
  }

  /** One more row keeps what a pass promises about its seen map and toasts. */
  lemma TrackStep(seen: map<nat, Status>, front: seq<Order>, o: Order, rows: seq<Order>, f: Tracking, toasts: seq<nat>)
    requires rows == front + [o] && toasts == f.toasts + (if Notifies(f.seen, o) then [o.id] else [])
    requires f.seen.Keys == seen.Keys + set x | x in front :: x.id
    requires forall id :: id in f.toasts ==> exists x :: x in front && x.id == id && x.status == Ready
    ensures f.seen[o.id := o.status].Keys == seen.Keys + set x | x in rows :: x.id
    ensures forall id :: id in toasts ==> exists x :: x in rows && x.id == id && x.status == Ready
  {
    assert (set x | x in rows :: x.id) == (set x | x in front :: x.id) + {o.id};
    forall id | id in toasts
      ensures exists x :: x in rows && x.id == id && x.status == Ready
    {
      if id in f.toasts {
        var x :| x in front && x.id == id && x.status == Ready;
        assert x in rows;
      } else {
        assert o in rows;
      }
    }
  }

  /** In a listing with distinct ids, the last row's id is not among the
      earlier rows, which have distinct ids themselves. */
  lemma LastIdFresh(rows: seq<Order>, front: seq<Order>, o: Order)
    requires UniqueIds(rows) && rows != [] && front == rows[..|rows| - 1] && o == rows[|rows| - 1]
    ensures UniqueIds(front)
    ensures forall x :: x in front ==> x.id != o.id
  {
    UniqueIdsPrefix(rows, |rows| - 1);
    forall x | x in front ensures x.id != o.id {
      var i :| 0 <= i < |front| && front[i] == x;
      assert rows[i] == x;
    }
  }

  /** With distinct ids, a pass leaves every listed row's status as last
      seen and every other entry alone. */
  lemma {:induction false} TrackRecordsStatus(seen: map<nat, Status>, rows: seq<Order>)
    requires UniqueIds(rows)
    ensures forall o :: o in rows ==> o.id in Track(seen, rows).seen && Track(seen, rows).seen[o.id] == o.status
    ensures forall id :: id in seen && (forall o :: o in rows ==> o.id != id) ==> Track(seen, rows).seen[id] == seen[id]
  {
    if rows != [] {
      var front := rows[..|rows| - 1];
      var o := rows[|rows| - 1];
      assert rows == front + [o];
      LastIdFresh(rows, front, o);
      TrackRecordsStatus(seen, front);
      var before := Track(seen, front).seen;
      assert Track(seen, rows).seen == before[o.id := o.status];
      RecordStep(seen, front, o, rows, before, before[o.id := o.status]);
    }
  }

  /** Recording one more row, whose id no earlier row has, keeps what the
      earlier rows recorded. */
  lemma RecordStep(seen: map<nat, Status>, front: seq<Order>, o: Order, rows: seq<Order>,
                   before: map<nat, Status>, after: map<nat, Status>)
    requires rows == front + [o] && after == before[o.id := o.status]
    requires forall x :: x in front ==> x.id != o.id
    requires forall x :: x in front ==> x.id in before && before[x.id] == x.status
    requires forall id :: id in seen && (forall x :: x in front ==> x.id != id) ==> id in before && before[id] == seen[id]
    ensures forall x :: x in rows ==> x.id in after && after[x.id] == x.status
    ensures forall id :: id in seen && (forall x :: x in rows ==> x.id != id) ==> id in after && after[id] == seen[id]
  {
    forall id | id in seen && (forall x :: x in rows ==> x.id != id) ensures id in after && after[id] == seen[id] {
      assert o in rows;
      forall x | x in front ensures x.id != id {
        assert x in rows;
      }
    }
  }

  /** With distinct ids, a pass toasts exactly the rows the rule picks out
      against the map it started from. */
  lemma {:induction false} TrackToastsExactly(seen: map<nat, Status>, rows: seq<Order>)
    requires UniqueIds(rows)
    ensures forall id :: id in Track(seen, rows).toasts <==> exists o :: o in rows && o.id == id && Notifies(seen, o)
  {
    if rows != [] {
      var front := rows[..|rows| - 1];
      var o := rows[|rows| - 1];
      assert rows == front + [o];
      LastIdFresh(rows, front, o);
      TrackToastsExactly(seen, front);
      TrackRecordsStatus(seen, front);
      var before := Track(seen, front);
      assert Notifies(before.seen, o) <==> Notifies(seen, o);
      assert Track(seen, rows).toasts == before.toasts + (if Notifies(before.seen, o) then [o.id] else []);
      ToastStep(seen, front, o, rows, before.toasts, Notifies(before.seen, o), Track(seen, rows).toasts);
    }
  }

  /** One more row adds its id to the toasts exactly when the rule picks it. */
  lemma ToastStep(seen: map<nat, Status>, front: seq<Order>, o: Order, rows: seq<Order>,
                  before: seq<nat>, fires: bool, after: seq<nat>)
    requires rows == front + [o] && after == before + (if fires then [o.id] else [])
    requires fires <==> Notifies(seen, o)
    requires forall id :: id in before <==> exists x :: x in front && x.id == id && Notifies(seen, x)
    ensures forall id :: id in after <==> exists x :: x in rows && x.id == id && Notifies(seen, x)
  {
    forall id ensures id in after <==> exists x :: x in rows && x.id == id && Notifies(seen, x) {
      if id in after {
        if id in before {
          var x :| x in front && x.id == id && Notifies(seen, x);
          assert x in rows;
        } else {
          assert o in rows;
        }
      }
      if exists x :: x in rows && x.id == id && Notifies(seen, x) {
        var x :| x in rows && x.id == id && Notifies(seen, x);
        if x in front {
          assert id in before;
        } else {
          assert x == o;
        }
      }
    }
  }

  /** An order seen for the first time never raises a toast. */
  lemma FirstSightingNeverNotifies(seen: map<nat, Status>, rows: seq<Order>, id: nat)
    requires UniqueIds(rows) && id !in seen
    ensures id !in Track(seen, rows).toasts
  {
    TrackToastsExactly(seen, rows);
  }

  lemma NoMemberMeansEmpty(xs: seq<nat>)
    ensures (forall x :: x !in xs) ==> xs == []
  {
    if xs != [] {
      assert xs[0] in xs;
    }
  }

  /** Rendering the same rows again raises no toast: a `Ready` order is
      announced once. */
  lemma RepeatPassIsQuiet(seen: map<nat, Status>, rows: seq<Order>)
    requires UniqueIds(rows)
    ensures Track(Track(seen, rows).seen, rows).toasts == []
  {
    var seen1 := Track(seen, rows).seen;
    TrackRecordsStatus(seen, rows);
    TrackToastsExactly(seen1, rows);
    NoMemberMeansEmpty(Track(seen1, rows).toasts);
  }

  /** The tracking expander of a signed-in student: it toasts only the
      student's own orders that are `Ready`. */
  function StudentTrack(s: Store, roll: string, seen: map<nat, Status>): (t: Tracking)
    ensures Valid(s) ==> forall id :: id in t.toasts ==>
      id in s.orders && s.orders[id].status == Ready && s.orders[id].userId == Strip(roll)
  {
    ToastsAreOwnReady(s, roll, seen, UserActiveOrders(s, roll));
    Track(seen, UserActiveOrders(s, roll))
  }

  /** Every id a pass over the student's listing toasts names a stored,
      `Ready` order of that student. */
  lemma ToastsAreOwnReady(s: Store, roll: string, seen: map<nat, Status>, rows: seq<Order>)
    requires rows == UserActiveOrders(s, roll)
    ensures Valid(s) ==> forall id :: id in Track(seen, rows).toasts ==>
      id in s.orders && s.orders[id].status == Ready && s.orders[id].userId == Strip(roll)
  {
    if Valid(s) {
      forall id | id in Track(seen, rows).toasts
        ensures id in s.orders && s.orders[id].status == Ready && s.orders[id].userId == Strip(roll)
      {
        var o :| o in rows && o.id == id && o.status == Ready;
        assert o in s.orders.Values;
      }
    }
  }

  /** An active order of the student at a known vendor is among the rows
      the tracking loop walks. */
  lemma TrackedOrderListed(s: Store, roll: string, id: nat)
    requires Valid(s) && id in s.orders && IsActive(s.orders[id].status)
    requires s.orders[id].userId == Strip(roll) && s.orders[id].vendorId in s.vendors
    ensures s.orders[id] in UserActiveOrders(s, roll) && UniqueIds(UserActiveOrders(s, roll))
  {
    assert s.orders[id] in s.orders.Values;
  }

  /** A pass leaves the order's status as last seen. */
  lemma TrackedOrderRecorded(s: Store, roll: string, seen: map<nat, Status>, id: nat)
    requires Valid(s) && id in s.orders && IsActive(s.orders[id].status)
    requires s.orders[id].userId == Strip(roll) && s.orders[id].vendorId in s.vendors
    ensures id in StudentTrack(s, roll, seen).seen
    ensures StudentTrack(s, roll, seen).seen[id] == s.orders[id].status
  {
    var rows := UserActiveOrders(s, roll);
    assert s.orders[id] in rows && UniqueIds(rows) by {
      TrackedOrderListed(s, roll, id);
    }
    RecordedIfListed(seen, rows, s.orders[id]);
    assert StudentTrack(s, roll, seen) == Track(seen, rows);
  }

  /** A listed row's status is what a pass leaves as last seen. */
  lemma RecordedIfListed(seen: map<nat, Status>, rows: seq<Order>, o: Order)
    requires UniqueIds(rows) && o in rows
    ensures o.id in Track(seen, rows).seen && Track(seen, rows).seen[o.id] == o.status
  {
    TrackRecordsStatus(seen, rows);
  }

  /** A listed row that the rule picks out is toasted by a pass. */
  lemma ToastedIfListed(seen: map<nat, Status>, rows: seq<Order>, o: Order)
    requires UniqueIds(rows) && o in rows && Notifies(seen, o)
    ensures o.id in Track(seen, rows).toasts
  {
    TrackToastsExactly(seen, rows);
  }

  /** A listed order that has become `Ready` since it was last seen toasts. */
  lemma TrackedOrderToasts(s: Store, roll: string, seen: map<nat, Status>, id: nat)
    requires Valid(s) && id in s.orders && s.orders[id].status == Ready
    requires s.orders[id].userId == Strip(roll) && s.orders[id].vendorId in s.vendors
    requires id in seen && seen[id] != Ready
    ensures id in StudentTrack(s, roll, seen).toasts
  {
    var rows := UserActiveOrders(s, roll);
    assert s.orders[id] in rows && UniqueIds(rows) by {
      TrackedOrderListed(s, roll, id);
    }
    ToastedIfListed(seen, rows, s.orders[id]);
  }

  /** A tracked `Cooking` order that the vendor marks `Ready` toasts on the
      next refresh and not on the one after. */
  lemma ReadyToastsOnce(s: Store, roll: string, seen: map<nat, Status>, id: nat)
    requires Valid(s) && id in s.orders && s.orders[id].status == Cooking
    requires s.orders[id].userId == Strip(roll) && s.orders[id].vendorId in s.vendors
    ensures var seen1 := StudentTrack(s, roll, seen).seen;
      var s' := UpdateStatus(s, id, Ready);
      var t2 := StudentTrack(s', roll, seen1);
      id in t2.toasts && StudentTrack(s', roll, t2.seen).toasts == []
  {
    TrackedOrderRecorded(s, roll, seen, id);
    var seen1 := StudentTrack(s, roll, seen).seen;
    var s' := UpdateStatus(s, id, Ready);
    TrackedOrderToasts(s', roll, seen1, id);
    TrackedOrderListed(s', roll, id);
    RepeatPassIsQuiet(seen1, UserActiveOrders(s', roll));
  }

  /** The progress bar: 0, 50 or 100 percent along the pipeline. */
  function Progress(st: Status): (pct: nat)
    ensures pct <= 100
    ensures pct == 100 <==> st == Ready
    ensures IsActive(st) ==> pct == 50 * Rank(st)
    ensures !IsActive(st) ==> pct == 0
  {
    match st
    case Received => 0
    case Cooking => 50
    case Ready => 100
    case _ => 0
  }

  datatype KarmaBadge = Green | Yellow | Red

  /** The karma badge colour: green above 80, red below 50. */
  function Badge(points: int): (b: KarmaBadge)
    ensures b == Green <==> points > 80
    ensures b == Red <==> points < 50
  {
    if points > 80 then Green else if points < 50 then Red else Yellow
  }

  function BadgeLevel(b: KarmaBadge): nat {
    match b
    case Red => 0
    case Yellow => 1
    case Green => 2
  }

  /** More karma never shows a worse badge, and a suspended student's
      badge is always red. */
  lemma BadgeFollowsKarma(s: Store, roll: string, p1: int, p2: int)
    requires p1 <= p2
    ensures BadgeLevel(Badge(p1)) <= BadgeLevel(Badge(p2))
    ensures CheckBanStatus(s, roll) ==> Badge(GetUserPoints(s, roll)) == Red
  {
  }

  // ---------------------------------------------------------------------
  // Sign-up and sign-in

  /** The sign-up form is sent to the store only with a name, a roll number
      and a four-character PIN; nothing is stripped at this point. */
  predicate FormComplete(name: string, roll: string, pin: string) {
    name != [] && roll != [] && |pin| == PinLength
  }

  datatype SignUpOutcome = Created | IdExists | FillFieldsCorrectly

  function SubmitRegistration(s: Store, name: string, roll: string, pin: string): (r: (Store, SignUpOutcome))
    ensures r.1 == FillFieldsCorrectly <==> !FormComplete(name, roll, pin)
    ensures r.1 == Created <==> FormComplete(name, roll, pin) && Strip(roll) !in s.users
    ensures r.1 != Created ==> r.0 == s
    ensures r.1 == Created ==> Strip(roll) in r.0.users && r.0.users[Strip(roll)].points == InitialPoints
    ensures Valid(s) ==> Valid(r.0)
  {
    if !FormComplete(name, roll, pin) then (s, FillFieldsCorrectly)
    else
      var (s', ok) := RegisterUser(s, roll, name, pin);
      (s', if ok then Created else IdExists)
  }

  /** Submitting the same completed form twice creates the account once. */
  lemma ResubmitReportsIdExists(s: Store, name: string, roll: string, pin: string)
    requires FormComplete(name, roll, pin) && Strip(roll) !in s.users
    ensures var s1 := SubmitRegistration(s, name, roll, pin).0;
      SubmitRegistration(s1, name, roll, pin) == (s1, IdExists)
  {
  }

  datatype SignInOutcome = Suspended | SignedIn | InvalidCredentials

  /** Student sign-in: the ban check comes first, then the credentials,
      whose comparison is a parameter here. */
  function SignIn(s: Store, roll: string, credentialsMatch: bool): (r: SignInOutcome)
    ensures r == Suspended <==> Strip(roll) in s.users && s.users[Strip(roll)].points < BanThreshold
    ensures r == SignedIn <==> !CheckBanStatus(s, roll) && credentialsMatch
  {
    if CheckBanStatus(s, roll) then Suspended
    else if credentialsMatch then SignedIn
    else InvalidCredentials
  }

  /** A freshly created account is never suspended at sign-in. */
  lemma NewAccountNotSuspended(s: Store, name: string, roll: string, pin: string, credentialsMatch: bool)
    requires FormComplete(name, roll, pin) && Strip(roll) !in s.users
    ensures SignIn(SubmitRegistration(s, name, roll, pin).0, roll, credentialsMatch) != Suspended
  {
  }
}
